=== FILE: README.md ===
# edit-log in Dafny

A model of the bookkeeping core of the edit-log VS Code extension. The extension
keeps, per file and per day, how many characters were written. It can export a
file's history to CSV and read it back, and it counts the characters of every file
below a folder.

The model is organised by the extension's own pieces:

- **Counters.** `CharacterCounter.count` and the older `countEffectiveChars`
  count grapheme segments that hold no whitespace (`character_counter.dfy`). The
  `countChars` copies count code points that do not match `\s`
  (`code_point_counter.dfy`). The `Intl.Segmenter` is a function-valued
  parameter. Lemmas about it assume only that it cuts the text into non-empty
  pieces whose concatenation is the text. The three whitespace classes of the
  sources (`\s`, `[\s\t\n\r]`, `[\s\t\n\r　]`) are three predicates in
  `js_text.dfy`, together with the UTF-16 view of a string.
- **Four ledgers.** They are kept apart, because they disagree:
  - `OverwriteLedger` (src/WebViewProvider.ts): a settled edit replaces
    today's added/removed.
  - `AccumulatingLedger` (unuse/260113/WebViewProvider.js): a save adds the
    change in count; a rename moves a history.
  - `PositionalLedger` (unuse/WebViewProvider.ts): an index-by-index
    comparison of UTF-16 units.
  - `TreeLedger` with `EditedCountExtension` (src/TreeDataProvider.ts and
    unuse/extension.ts): an `editedCount` per day fed by document changes.

  `EditLogView` is the webview of unuse/EditLogProvider.ts. It reads its own
  module-level `fileStats`, a different object from the tree view's store but of
  the same shape, so it is modelled by the same `FileStatsStore` class.
  Each provider is a `class` whose methods update its fields. Each method is
  proved against a function on histories, and the ledger properties are lemmas
  about those functions. `Days` holds what they share: the day records, `find`
  by date, the uniqueness invariant and the date-descending sort used for display.
- **CSV.** `HistoryCsv` builds the exported content and parses imported content.
  It rests on `JsString`, which gives ECMAScript `split`, `join`, `trim` and
  `parseInt` with the `|| 0` fallback.
- **Folder scan.** `FolderScan` walks an abstract directory tree. It follows
  `getFolderStats`: ignored names, the excluded extensions, unreadable files,
  and paths relative to the starting root. It is given both as a recursive
  function and as the recursive method with its loop.

Dates are opaque strings supplied by the caller. Document texts, directory
listings and file contents are inputs; a listing that fails to be read is not
modelled (see "## Left out").

Where the code and its description disagree, the model follows the code:

- `updateTodayStats` (src/WebViewProvider.ts:93-97) assigns added/removed;
  it does not add to them.
- None of the ledgers carries a count across days. A day's first record starts
  from that day's count, or from 0.
- The change handler of unuse/extension.ts reads the removed range from the
  document text AFTER the change. That is the text `event.document.getText()`
  returns.
- The three whitespace classes are the same set of code points, because `\s`
  already holds TAB, LF, CR and U+3000 (`JsText.WhitespaceClassesAgree`).

## Model

| member | source | states |
|---|---|---|
| JsText.WhitespaceClassesAgree | src/utils/characterCounter.ts:11 | `[\s\t\n\r　]`, `[\s\t\n\r]` and `\s` accept exactly the same code points |
| JsText.Utf16Of | unuse/WebViewProvider.ts:66-69 | a code point is one UTF-16 unit below U+10000 and otherwise a high and a low surrogate |
| JsText.Utf16 | unuse/WebViewProvider.ts:66-69 | a string's UTF-16 form has between one and two units per code point |
| JsText.Utf16Append | unuse/WebViewProvider.ts:66-69 | the UTF-16 code units of a concatenation are the code units of the parts, concatenated |
| CharacterCounter.KeptSegments | src/utils/characterCounter.ts:11 | the filter keeps only segments of the input in which no code point is whitespace, and no more segments than there are |
| CharacterCounter.CountSegmentsAtMostLength | src/utils/characterCounter.ts:11 | the count is at most the number of segments, and for a segmentation at most the length of the text |
| CharacterCounter.CountSegments | src/utils/characterCounter.ts:11 | `filter(...).length` is at most the number of segments |
| CharacterCounter.Count | src/utils/characterCounter.ts:5-12 | `CharacterCounter.count`: for a segmentation of the text, at most the text's length |
| CharacterCounter.CountEffectiveChars | unuse/260113/WebViewProvider.js:77-80 | `countEffectiveChars` with `[\s\t\n\r]`: for a segmentation of the text, at most its length |
| CharacterCounter.CountSegmentsAppend | src/utils/characterCounter.ts:8-11 | the count is additive over concatenation of segment lists |
| CharacterCounter.CountSingleSegment | src/utils/characterCounter.ts:11 | one segment counts 1 exactly when none of its code points is whitespace, and 0 exactly when one is (a segment is dropped for ANY whitespace in it) |
| CharacterCounter.EmptyTextCountsZero | src/utils/characterCounter.ts:8-11 | the empty text has no segments and counts 0 |
| CharacterCounter.AllSpaceTextCountsZero | src/utils/characterCounter.ts:11 | a text made only of whitespace counts 0, whatever the segmentation |
| CharacterCounter.CountZeroOnBlank | src/utils/characterCounter.ts:5-12 | `count` of an all-whitespace text is 0 |
| CharacterCounter.SegmentationNoLongerThanText | src/utils/characterCounter.ts:8 | a segmentation into non-empty pieces has at most as many pieces as the text has characters |
| CharacterCounter.CountAtMostCountChars | src/utils/characterCounter.ts:11 | counting grapheme segments never exceeds counting code points (`countChars`) |
| CharacterCounter.CountSegmentsSameClass | src/utils/characterCounter.ts:11 | two whitespace tests that agree on every code point give the same count |
| CharacterCounter.CountAtMostCodePointCount | src/utils/characterCounter.ts:5-12 | `count` and `countEffectiveChars` are both at most `countChars` of the same text |
| CodePointCounter.CodePoints | src/WebViewProvider.ts:13 | a text is already its sequence of code points, one per character, in order; that this is what `Array.from` computes from the UTF-16 string, surrogate pairs included, is carried by `DecodeUtf16OfText` |
| CodePointCounter.CountNonSpace | src/WebViewProvider.ts:13 | the filtered length is at most the number of code points |
| CodePointCounter.CountNonSpaceAppend | src/WebViewProvider.ts:13 | the filtered length is additive over concatenation |
| CodePointCounter.CountChars | src/WebViewProvider.ts:12-14 | `countChars` is at most the code-point length |
| CodePointCounter.DecodeUtf16 | unuse/extension.ts:43-44 | `Array.from` over code units yields no more code points than there are units, and at least one for a non-empty input |
| CodePointCounter.CountCharsOfUnits | unuse/extension.ts:43-44 | `countChars` of a slice is at most its number of code units |
| CodePointCounter.DecodeUtf16OfText | unuse/extension.ts:43-44 | decoding the UTF-16 form of a text gives back its code points |
| CodePointCounter.CountCharsOfUtf16 | unuse/extension.ts:43-44 | counting a text through its code units agrees with `countChars` of the text |
| CodePointCounter.CountCharsAppend | src/TreeDataProvider.ts:19-21 | `countChars` is additive over concatenation |
| CodePointCounter.CountCharsSingle | src/TreeDataProvider.ts:20 | one code point counts 1 exactly when it does not match `\s`, and 0 exactly when it does |
| CodePointCounter.CountCharsZeroIffAllSpace | unuse/EditLogProvider.ts:16-18 | `countChars` is 0 if and only if every code point matches `\s` (the empty text included) |
| CodePointCounter.CountCharsFullIffNoSpace | unuse/EditLogProvider.ts:16-18 | `countChars` equals the length if and only if no code point matches `\s` |
| Days.FindDate | src/WebViewProvider.ts:63 | `history.find(h => h.date === d)`: the first record of that date, and none exactly when no record has it |
| Days.FoundIsOnly | src/WebViewProvider.ts:63 | with unique dates, the record `find` returns is the only one of its date |
| Days.LexLeTotal | src/WebViewProvider.ts:116 | the date order (standing for `localeCompare`) is total |
| Days.LexLeTransitive | src/WebViewProvider.ts:116 | the date order is transitive |
| Days.LexLeAntisymmetric | src/WebViewProvider.ts:116 | the date order is antisymmetric |
| Days.InsertByDateDesc | src/WebViewProvider.ts:116 | inserting into a date-descending list keeps it date-descending and adds exactly that record |
| Days.SortByDateDesc | src/WebViewProvider.ts:116 | the sorted copy is date-descending and a permutation of the history |
| Days.FindAfterAppend | src/WebViewProvider.ts:63-66 | after pushing a record of a new date, `find` returns the pushed record and still finds the others |
| Days.FindAfterReplace | src/WebViewProvider.ts:67-69 | overwriting a found record's fields keeps what `find` returns |
| Days.CountsAfterAppend | src/WebViewProvider.ts:63-66 | pushing a record with non-negative counts keeps every count non-negative |
| Days.CountsAfterReplace | src/WebViewProvider.ts:67-69 | overwriting a record with non-negative counts keeps every count non-negative |
| Days.AppendKeepsUnique | src/WebViewProvider.ts:63-66 | pushing a record only when its date is absent keeps dates unique |
| Days.ReplaceKeepsUnique | src/WebViewProvider.ts:67-69 | overwriting a record's counts keeps dates unique |
| OverwriteLedger.ActivateDay | src/WebViewProvider.ts:61-69 | activation appends `{today, 0, 0, count}` when today has no record, else sets only that record's `charCount`; other days are untouched; dates stay unique and counts non-negative |
| OverwriteLedger.Settle | src/WebViewProvider.ts:93-97 | added − removed is the new count minus the stored one, neither is negative, at most one is non-zero, and `charCount` becomes the new count |
| OverwriteLedger.SettleDay | src/WebViewProvider.ts:88-98 | a day's first record is `{today, count, 0, count}`, an existing one is `Settle`d; no second record for a date; other days are untouched |
| OverwriteLedger.ActivateTwice | src/WebViewProvider.ts:61-69 | activating twice on one day is activating once with the later count |
| OverwriteLedger.SettleTwiceForgetsDelta | src/WebViewProvider.ts:93-97 | settling twice with the same count leaves added = removed = 0: the first delta is overwritten |
| OverwriteLedger.WebViewProvider.constructor | src/WebViewProvider.ts:18-19 | a new provider has no active file and no stats (nothing stored is loaded) |
| OverwriteLedger.WebViewProvider.SetActiveFile | src/WebViewProvider.ts:49-53 | sets the active file; for a non-empty path only its history changes, to `ActivateDay` of it (from an empty history when untracked); for the empty path the stats are unchanged |
| OverwriteLedger.WebViewProvider.OnActiveEditorChanged | src/WebViewProvider.ts:29-33 | the active file becomes the editor's path, then activation runs as above |
| OverwriteLedger.WebViewProvider.UpdateActiveFileStats | src/WebViewProvider.ts:55-72 | without an active file nothing changes; otherwise only that file's history changes, to `ActivateDay` of it |
| OverwriteLedger.WebViewProvider.UpdateTodayStats | src/WebViewProvider.ts:79-102 | without an active file or its stats nothing changes; otherwise only that history changes, to `SettleDay` of it |
| OverwriteLedger.WebViewProvider.DisplayedHistory | src/WebViewProvider.ts:108-118 | empty without an active file or its stats; else the stored history date-descending, as a permutation |
| AccumulatingLedger.Accumulate | unuse/260113/WebViewProvider.js:116-126 | added and removed only grow, by the positive/negative part of the change, so their net change is the change in count; an unchanged count changes nothing |
| AccumulatingLedger.RecordEdit | unuse/260113/WebViewProvider.js:113-138 | a day's first record is `{date, count, 0, count}`, an existing one is `Accumulate`d; other days untouched; dates stay unique and counts non-negative |
| AccumulatingLedger.OpenDay | unuse/260113/WebViewProvider.js:91-102 | adds `{date, 0, 0, count}` only when the day has no record, else leaves the history as it is |
| AccumulatingLedger.RecordEditIdempotent | unuse/260113/WebViewProvider.js:119-126 | a second `updateHistory` with the same content changes nothing |
| AccumulatingLedger.OpenDayIdempotent | unuse/260113/WebViewProvider.js:91-102 | activating twice on one day adds no second record |
| AccumulatingLedger.NetDeltaConservation | unuse/260113/WebViewProvider.js:116-126 | over any same-day sequence of saves, Δadded − Δremoved equals the last count minus the day's starting count |
| AccumulatingLedger.NetDeltaStep | unuse/260113/WebViewProvider.js:116-136 | one save moves today's added − removed by the new count minus the stored one |
| AccumulatingLedger.RecordedCountIsLast | unuse/260113/WebViewProvider.js:126 | after a day's saves, today's `charCount` is the last count saved |
| AccumulatingLedger.MoveHistory | unuse/260113/WebViewProvider.js:58-60 | the new path gets the old path's history, the old path is gone, every other key is unchanged |
| AccumulatingLedger.MoveKeepsValid | unuse/260113/WebViewProvider.js:58-60 | moving a history keeps every history's dates unique and counts non-negative |
| AccumulatingLedger.RenameOne | unuse/260113/WebViewProvider.js:55-66 | an absent old path changes nothing; otherwise the history moves, and the active path follows with the new document's text as baseline |
| AccumulatingLedger.RenameAll | unuse/260113/WebViewProvider.js:54-68 | handling an event's renames in order keeps every history valid, and every path holding a history afterwards held one before or is the new path of one of the renames |
| AccumulatingLedger.RenameAllKeepsHistories | unuse/260113/WebViewProvider.js:53-69 | after any sequence of renames every stored history is one of the histories before them |
| AccumulatingLedger.RenameToSamePathDropsHistory | unuse/260113/WebViewProvider.js:59-60 | renaming a file to its own path deletes its history (the delete follows the set) |
| AccumulatingLedger.WebViewProvider.constructor | unuse/260113/WebViewProvider.js:41-43 | a new provider has no active file, an empty baseline and no histories |
| AccumulatingLedger.WebViewProvider.SetActiveFile | unuse/260113/WebViewProvider.js:81-104 | the active path and baseline content are set, and the file's history becomes `OpenDay` of it |
| AccumulatingLedger.WebViewProvider.UpdateHistory | unuse/260113/WebViewProvider.js:105-141 | without an active file nothing changes; otherwise its history becomes `RecordEdit` of it and the baseline becomes the new content |
| AccumulatingLedger.WebViewProvider.OnDidSave | unuse/260113/WebViewProvider.js:47-51 | only a save of the active file is recorded, as `RecordEdit` |
| AccumulatingLedger.WebViewProvider.HandleRename | unuse/260113/WebViewProvider.js:55-66 | one turn of the listener's loop computes `RenameOne` and keeps the histories valid |
| AccumulatingLedger.WebViewProvider.OnDidRenameFiles | unuse/260113/WebViewProvider.js:53-69 | the state after the loop is `RenameAll` of the event's renames, in order, and stays valid |
| PositionalLedger.PositionalDiff | unuse/WebViewProvider.ts:62-74 | added/removed are the numbers of differing indices below `max(len)` whose new/old unit exists and is not whitespace; added ≤ new length, removed ≤ old length; identical texts give 0 and 0 |
| PositionalLedger.AddedBelowBound | unuse/WebViewProvider.ts:66-71 | the added count is at most the new content's length |
| PositionalLedger.RemovedBelowBound | unuse/WebViewProvider.ts:66-72 | the removed count is at most the old content's length |
| PositionalLedger.AddedBelowPastEnd | unuse/WebViewProvider.ts:71 | indices past the end of the new content add nothing |
| PositionalLedger.RemovedBelowPastEnd | unuse/WebViewProvider.ts:72 | indices past the end of the old content remove nothing |
| PositionalLedger.SameContentNoDiff | unuse/WebViewProvider.ts:70 | identical contents differ at no index |
| PositionalLedger.InsertAtFrontCountsShift | unuse/WebViewProvider.ts:66-74 | one character inserted at the front shifts every unit: "ab" to "xab" counts 3 added and 2 removed |
| PositionalLedger.FoldEdit | unuse/WebViewProvider.ts:77-91 | an existing record accumulates added and removed and takes the new count; otherwise exactly one record `{date, added, removed, count}` is appended; dates stay unique |
| PositionalLedger.FoldIntoHistory | unuse/WebViewProvider.ts:77-90 | the method computes `FoldEdit` |
| PositionalLedger.WebViewProvider.constructor | unuse/WebViewProvider.ts:13-15 | a new provider has no active file, an empty baseline and no histories |
| PositionalLedger.WebViewProvider.SetActiveFile | unuse/WebViewProvider.ts:42-47 | sets the active path and resets the baseline content; the history map is unchanged |
| PositionalLedger.WebViewProvider.HandleEdit | unuse/WebViewProvider.ts:50-94 | the history under `activeFilePath \|\| ''` becomes `FoldEdit` of the positional counts and the new grapheme count; the baseline becomes the new content |
| PositionalLedger.WebViewProvider.OnDidSave | unuse/WebViewProvider.ts:19-23 | a save of another file changes nothing; a save of the active file folds the positional counts into its history, as `HandleEdit` |
| TreeLedger.EditedAfterAppend | src/TreeDataProvider.ts:56-58 | pushing a non-negative day keeps every count non-negative |
| TreeLedger.EditedAfterReplace | src/TreeDataProvider.ts:59-62 | overwriting a day with a non-negative one keeps every count non-negative |
| TreeLedger.TotalEditedAppend | src/TreeDataProvider.ts:56-58 | pushing a day adds its `editedCount` to the file's total |
| TreeLedger.TotalEditedReplace | src/TreeDataProvider.ts:59-62 | replacing a day changes the total by the difference of the edit counts |
| TreeLedger.ActivateToday | src/TreeDataProvider.ts:55-62 | appends `{today, 0, count}` when today has no record, else refreshes only `charCount`; no `editedCount` and no date changes |
| TreeLedger.ActivateEntry | src/TreeDataProvider.ts:50-62 | a new file starts as `{charCount: count, history: []}`; a tracked one keeps its top-level `charCount`; then `ActivateToday` |
| TreeLedger.ActivateTodayTwice | src/TreeDataProvider.ts:55-62 | activating twice on one day is activating once with the later count |
| TreeLedger.ActivateKeepsTotalEdited | src/TreeDataProvider.ts:55-62 | activation never changes the file's total edit count |
| TreeLedger.ActivateEntryTwice | src/TreeDataProvider.ts:41-64 | two same-day activations keep every `editedCount`, leave one record for the day and keep the top-level count |
| TreeLedger.FileStatsStore.constructor | src/TreeDataProvider.ts:11-16 | the store starts with no stats |
| TreeLedger.EditLogProvider.SetActiveFile | src/TreeDataProvider.ts:41-64 | sets the active file; only that file's entry changes, to `ActivateEntry` of it |
| TreeLedger.ShownHistory | src/TreeDataProvider.ts:74-87 | nothing without a truthy active file or its stats; else that file's history date-descending, as a permutation |
| TreeLedger.EditLogProvider.constructor | src/TreeDataProvider.ts:39 | a new provider has no active file and uses the given store |
| TreeLedger.EditLogProvider.Children | src/TreeDataProvider.ts:74-87 | empty without an active file or its stats; else its history date-descending, as a permutation |
| EditedCountExtension.Slice | unuse/extension.ts:43 | `slice` clamps both ends to the length: inside the text it is the plain subsequence, a range running past the end gives the rest of the text from its start, and a range starting past the end is empty |
| EditedCountExtension.RemovedChars | unuse/extension.ts:40-45 | nothing is removed for an empty range, and at most the range length |
| EditedCountExtension.Contribution | unuse/extension.ts:32-47 | an IME placeholder contributes 0; any other change contributes the larger of its added and removed counts |
| EditedCountExtension.ChangeContribution | unuse/extension.ts:29-48 | the `forEach` callback computes `Contribution` |
| EditedCountExtension.SumEdited | unuse/extension.ts:27-48 | the loop computes the sum of the contributions |
| EditedCountExtension.EditedSumAppend | unuse/extension.ts:29-48 | the sum is additive over a split of the change list |
| EditedCountExtension.PlaceholdersEditNothing | unuse/extension.ts:32-34 | an event made only of IME placeholders edits nothing |
| EditedCountExtension.EditedSum | unuse/extension.ts:27-48 | `edited` after the `forEach` never exceeds the inserted text plus the replaced ranges |
| EditedCountExtension.EditedSumStep | unuse/extension.ts:47 | one more change adds its contribution to the running sum |
| EditedCountExtension.LogEdit | unuse/extension.ts:53-60 | without a log for today exactly one `{today, edited, count}` is appended; otherwise today's `editedCount` grows by `edited` and its `charCount` becomes the document count; other days are untouched; dates stay unique and counts non-negative |
| EditedCountExtension.LogEditTotal | unuse/extension.ts:53-60 | the file's total edit count grows by exactly `edited` |
| EditedCountExtension.EditAfterActivationKeepsOneRecord | unuse/extension.ts:53-57 | after today's activation an edit adds no second record for today |
| EditedCountExtension.LogToday | unuse/extension.ts:53-60 | the method computes `LogEdit` |
| EditedCountExtension.OnActiveEditorChanged | unuse/extension.ts:9-20 | for a `file` editor, an untracked file gets an entry first and is then activated; any other editor changes nothing |
| EditedCountExtension.OnDidChangeTextDocument | unuse/extension.ts:23-63 | an untracked file changes nothing; otherwise only its history changes, to `LogEdit` with the summed contributions |
| EditLogView.EditLogProvider.constructor | unuse/EditLogProvider.ts:22-24 | a new provider has no active file and uses the given store |
| EditLogView.EditLogProvider.Shown | unuse/EditLogProvider.ts:39-53 | empty without an active file or its stats; else the history date-descending, as a permutation |
| EditLogView.EditLogProvider.SetActiveFile | unuse/EditLogProvider.ts:34-37 | only `activeFile` changes; the stats are untouched; the shown list is as above |
| JsString.Join | src/utils/historyManager.ts:39 | `join` of no parts is empty; otherwise it starts with the first part, followed by the separator when there are more |
| JsString.Split | src/utils/historyManager.ts:73 | `split(',')` gives at least one piece, and no piece holds the separator |
| JsString.SplitLacking | src/utils/historyManager.ts:73 | a string without the separator splits into itself |
| JsString.SplitAtSeparator | src/utils/historyManager.ts:73 | splitting at a separator concatenates the splits of both sides |
| JsString.SplitJoin | src/utils/historyManager.ts:39 | joining separator-free parts and splitting again gives the parts back |
| JsString.JoinLacks | src/utils/historyManager.ts:39 | joining parts without a character gives a string without it, when the separator differs |
| JsString.TrimStart | src/utils/historyManager.ts:61 | drops exactly the leading `\s` code points |
| JsString.TrimEnd | src/utils/historyManager.ts:61 | drops exactly the trailing `\s` code points |
| JsString.Trim | src/utils/historyManager.ts:61 | `trim` gives a string with no whitespace at either end, no longer than its input |
| JsString.TrimEmptyIffBlank | src/utils/historyManager.ts:61 | `trim` leaves an empty string exactly when the input is all whitespace, so the blank-line filter drops exactly the all-whitespace lines |
| JsString.TrimIdentity | src/utils/historyManager.ts:68 | `trim` keeps a string exactly when neither end is whitespace |
| JsString.NotBlank | src/utils/historyManager.ts:61 | a string holding a non-whitespace code point is not blank after `trim` |
| JsString.IntToString | src/utils/historyManager.ts:38 | the plain decimal form of a count starts with a digit or `-`, ends with a digit, and holds no comma or line break |
| JsString.DigitsValueOfNatToString | src/utils/historyManager.ts:38 | the decimal digits of `n` have the value `n` |
| JsString.ParseIntOfIntToString | src/utils/historyManager.ts:76-78 | `parseInt(String(n)) \|\| 0` is `n` for every integer below 10^21 in magnitude (the range printed in plain digits) |
| JsString.ParseIntOrZero | src/utils/historyManager.ts:76-78 | `parseInt(x) \|\| 0` is non-zero only when the field holds a decimal digit |
| JsString.ParseSigned | src/utils/historyManager.ts:76-78 | after the whitespace, a non-zero value needs a digit first or right after the sign |
| JsString.ParseMagnitude | src/utils/historyManager.ts:76-78 | an unsigned field is non-zero only when it starts with a digit |
| JsString.TrimStartSkipsSpace | src/utils/historyManager.ts:76-78 | the whitespace `parseInt` skips is exactly what `trimStart` removes |
| JsString.ParseIntSkipsSpace | src/utils/historyManager.ts:76-78 | `parseInt` ignores leading whitespace |
| JsString.ParseIntDecimalPrefix | src/utils/historyManager.ts:76-78 | an optional sign and the longest decimal prefix give the value; trailing junk is ignored |
| JsString.ParseIntHexPrefix | src/utils/historyManager.ts:76-78 | after `0x`/`0X` the longest hexadecimal prefix gives the value |
| JsString.ParseIntOfSigned | src/utils/historyManager.ts:76-78 | a sign followed by a digit negates the magnitude only for `-` |
| JsString.ParseIntOfHex | src/utils/historyManager.ts:76-78 | after `0x` or `0X` the value is read in base 16 |
| JsString.ParseIntEmpty | src/utils/historyManager.ts:76-78 | an empty field is NaN, hence 0 |
| JsString.ParseIntNoDigits | src/utils/historyManager.ts:76-78 | a field that starts with no sign, digit or whitespace is NaN, hence 0 |
| HistoryCsv.FormatRow | src/utils/historyManager.ts:38 | a row starts with the date and a comma and ends with a digit |
| HistoryCsv.Rows | src/utils/historyManager.ts:37-39 | one row per record, in ledger order |
| HistoryCsv.Export | src/utils/historyManager.ts:21-41 | nothing is written exactly when the history is empty |
| HistoryCsv.ExportShape | src/utils/historyManager.ts:35-41 | the content is the `SourceFile:` line, the header, and `date,removed,added,total` rows, joined by `\n`, with no trailing newline |
| HistoryCsv.FormatRowShape | src/utils/historyManager.ts:38 | a row ends with a digit and holds no newline |
| HistoryCsv.DropCr | src/utils/historyManager.ts:61 | a line loses at most one carriage return at its end |
| HistoryCsv.SplitLines | src/utils/historyManager.ts:61 | `split(/\r?\n/)` is the split at `\n` with one `\r` dropped before each newline |
| HistoryCsv.NonBlank | src/utils/historyManager.ts:61 | the filter keeps no more lines than it is given |
| HistoryCsv.NonBlankAppend | src/utils/historyManager.ts:61 | the filter of a concatenation is the concatenation of the filters: the kept lines stay in input order, each as often as it occurs |
| HistoryCsv.NonBlankSingle | src/utils/historyManager.ts:61 | a single line is kept exactly when it is not blank after `trim` |
| HistoryCsv.NonBlankSound | src/utils/historyManager.ts:61 | every kept line is an input line that is not blank after `trim` |
| HistoryCsv.NonBlankComplete | src/utils/historyManager.ts:61 | every non-blank input line is kept |
| HistoryCsv.NonBlankOfClean | src/utils/historyManager.ts:61 | lines with a non-space last character all survive the filter |
| HistoryCsv.NonBlankKeepsAll | src/utils/historyManager.ts:61 | the filter returns its input unchanged when every line is non-blank |
| HistoryCsv.ParseRow | src/utils/historyManager.ts:73-79 | the date is the first comma-separated field and so holds no comma (the counts are stated by `ParseFormatRow` and `ParseRowWithoutCommas`) |
| HistoryCsv.SourcePathOf | src/utils/historyManager.ts:66-69 | the source path has no surrounding whitespace, and is empty when the first line lacks `SourceFile:` |
| HistoryCsv.Import | src/utils/historyManager.ts:50-87 | `importFromCSV` fails exactly when fewer than three non-blank lines remain; otherwise it yields at most one entry per line after the first two |
| HistoryCsv.ImportLines | src/utils/historyManager.ts:63-82 | fails exactly when fewer than three lines remain; otherwise the source path comes from line 1, line 2 is skipped, and there is one entry per later line, in order |
| HistoryCsv.ImportWithoutPrefix | src/utils/historyManager.ts:66-69 | a first line without `SourceFile:` still imports, with the empty path |
| HistoryCsv.SourcePathOfMeta | src/utils/historyManager.ts:67-68 | the metadata line of a path without surrounding whitespace reads back as that path |
| HistoryCsv.ParseRowWithoutCommas | src/utils/historyManager.ts:73-79 | a line without commas is a date with all three counts 0 (missing fields are 0) |
| HistoryCsv.ParseRowIgnoresExtraFields | src/utils/historyManager.ts:73 | fields after the fourth are ignored |
| HistoryCsv.ParseFormatRow | src/utils/historyManager.ts:38-79 | a row reads back as the record it was written from, removed before added, when its counts are below 10^21 in magnitude |
| HistoryCsv.SplitFourFields | src/utils/historyManager.ts:73 | four comma-free fields joined by commas split back into those four |
| HistoryCsv.LinesOfJoin | src/utils/historyManager.ts:39-61 | lines joined by `\n` and split at `\r?\n` come back unchanged, when none holds a newline or ends in whitespace |
| HistoryCsv.ExportLinesClean | src/utils/historyManager.ts:35-39 | every exported line holds no newline and ends in a non-space character |
| HistoryCsv.ExportedLines | src/utils/historyManager.ts:35-61 | splitting and filtering the export gives the metadata line, the header and the rows |
| HistoryCsv.ImportOfRows | src/utils/historyManager.ts:66-82 | importing those lines gives back the path and the records |
| HistoryCsv.ImportReadsMetaPath | src/utils/historyManager.ts:66-69 | importing exported lines reads back the source path |
| HistoryCsv.ImportReadsRows | src/utils/historyManager.ts:72-80 | importing exported lines reads back every record, in order |
| HistoryCsv.ExportImportRoundTrip | src/utils/historyManager.ts:35-82 | import(export(path, history)) is the path and the same history, for a non-empty history whose dates hold no comma or newline and whose counts are below 10^21 in magnitude, and a path with no newline and no surrounding whitespace |
| FolderScan.LastDot | src/utils/countCharactersRecursive.ts:42 | the index of the last `.`, and none exactly when there is no dot |
| FolderScan.Extname | src/utils/countCharactersRecursive.ts:42 | `path.extname` is non-empty exactly when the last dot is not the first character and the name is not `..`; it is then the suffix from that last dot; it is always empty or a dot followed by no other dot |
| FolderScan.ExtnameExamples | src/utils/countCharactersRecursive.ts:42 | `notes.MD` has `.MD`, `archive.tar.gz` has `.gz`, `name.` has `.` |
| FolderScan.NoExtnameExamples | src/utils/countCharactersRecursive.ts:42 | `.gitignore` and `..` have no extension |
| FolderScan.IsExcluded | src/utils/countCharactersRecursive.ts:42-43 | only a file whose name has an extension can be excluded |
| FolderScan.ToLowerAscii | src/utils/countCharactersRecursive.ts:42 | `toLowerCase` on ASCII letters, leaving the rest, so no capital letter remains (a reference definition of the library call) |
| FolderScan.UpperCaseExtensionExcluded | src/utils/countCharactersRecursive.ts:6-43 | `Scan.PDF` is excluded like `scan.pdf` |
| FolderScan.LowerPdf | src/utils/countCharactersRecursive.ts:42 | `toLowerCase` maps `.PDF` to `.pdf` |
| FolderScan.DotFileNotExcluded | src/utils/countCharactersRecursive.ts:42-43 | a file named `.png` is not excluded |
| FolderScan.ScanSound | src/utils/countCharactersRecursive.ts:27-59 | every result is a readable file reached through non-ignored names below the node, with the count of its content |
| FolderScan.ScanPathsSound | src/utils/countCharactersRecursive.ts:48-50 | every result's full path is the root plus its relative path, and its extension is not excluded |
| FolderScan.ReachesAvoidsIgnored | src/utils/countCharactersRecursive.ts:36 | no component of a reported path is `.git` or `node_modules` |
| FolderScan.FolderStatsSound | src/utils/countCharactersRecursive.ts:27-59 | from the starting folder: path relative to that root at every depth, no ignored component, no excluded extension, count of a readable file there |
| FolderScan.ScanComplete | src/utils/countCharactersRecursive.ts:33-55 | every readable, non-excluded file reached through non-ignored names is reported, with its relative path and count |
| FolderScan.ScanDistinct | src/utils/countCharactersRecursive.ts:33-55 | in a tree whose listings repeat no name, no two results share a relative path |
| FolderScan.EntriesDistinct | src/utils/countCharactersRecursive.ts:34-39 | the loop over a listing with distinct names yields results with distinct relative paths |
| FolderScan.ScanReportsOnce | src/utils/countCharactersRecursive.ts:33-55 | in such a tree, every readable, non-excluded file reached through non-ignored names is reported exactly once |
| FolderScan.Scan | src/utils/countCharactersRecursive.ts:27-59 | `getFolderStats` never yields more results than the tree has file leaves |
| FolderScan.ScanEntries | src/utils/countCharactersRecursive.ts:33-40 | the loop over a listing yields no more results than the listing's file leaves |
| FolderScan.FolderStats | src/utils/countCharactersRecursive.ts:27-28 | from the starting folder: no more results than file leaves; a file itself yields nothing exactly when it is excluded or unreadable |
| FolderScan.ScanDirectory | src/utils/countCharactersRecursive.ts:33-40 | the loop over the entries, skipping ignored names, computes `ScanEntries` |
| FolderScan.ScanEntriesAppend | src/utils/countCharactersRecursive.ts:34-39 | a listing's results are its first entries' results followed by the rest's: depth-first, in listing order |
| FolderScan.UnreadableFileSkipped | src/utils/countCharactersRecursive.ts:44-55 | an unreadable file is skipped without affecting its siblings' results |
| FolderScan.UnreadableEntryYieldsNothing | src/utils/countCharactersRecursive.ts:44-56 | a file whose read fails contributes no result |
| FolderScan.ScanEntriesFrom | src/utils/countCharactersRecursive.ts:34-39 | the results from entry k on are that entry's results (none for an ignored name) followed by those of the later entries |
| FolderScan.GetFolderStats | src/utils/countCharactersRecursive.ts:27-59 | the recursive method with its loop computes the scan function |
| FolderScan.ReadFileStat | src/utils/countCharactersRecursive.ts:41-56 | the file branch computes the scan of a file: nothing when excluded or unreadable, else one `FileStat` |

## Left out

- The VS Code host is not modelled: event subscriptions, webview HTML and tree items, the `_view`/`view` presence checks, `refresh`, `globalState` persistence (the src/WebViewProvider.ts constructor's loading of stored stats included; a provider starts empty), the save and open dialogs, messages, and `workspace.fs` reads and writes. Texts, listings and file contents are inputs.
- The debounce timer of `scheduleUpdate` is not modelled. `updateTodayStats` is called directly.
- Dates are generated from the clock and the locale (`toISOString`, `toLocaleDateString('ja-JP')`); here they are strings supplied by the caller.
- `Intl.Segmenter` and its UAX #29 tables are a function-valued parameter. Segment facts need only that its output is a segmentation of the text.
- `localeCompare` is code-point lexicographic order. The sort is a stable insertion sort; the JavaScript engine's sort algorithm is not modelled, only the sortedness and permutation it must meet.
- The `FolderScan` paths are sequences of components. Path joining, normalisation, `path.relative` on strings and the file-type bits of `stat` are not modelled.
- Strings are sequences of Unicode scalar values. An input string holding a lone surrogate cannot be written. Slices of the UTF-16 form can split a pair; `DecodeUtf16` handles that case.
- UTF-8 decoding of file contents is not modelled.
- `parseInt` results are unbounded integers. The double-precision rounding of very long digit strings is not modelled.
- `toLowerCase` is modelled on ASCII letters only, which cover every listed extension.
- src/extension.ts is not part of this model; it only registers a provider.
- The unused `prevCount` of `handleEdit` is not modelled.
- The compiled unuse/WebViewProvider.js and unuse/extension.js, and the older copies under unuse/, are not modelled; they repeat the modelled .ts files.
- HistoryCsv.ExportImportRoundTrip: requires less than "non-blank dates with no surrounding whitespace and non-negative counts". Negative counts are fine, and dates need only be free of `,` and `\n`, because each row ends with a digit and so is never blank. Counts must be below 10^21 in magnitude, because larger ones are written in exponent form.
- JsString.IntToString: writes every integer in plain decimal digits. JavaScript writes a Number of magnitude 10^21 or more in exponent form (`1e+21`), which `parseInt` reads back as its leading digit. The round-trip lemmas therefore require `PrintsPlain`.
- HistoryCsv.Export: states only when nothing is written; the written content is stated by `HistoryCsv.ExportShape`.
- HistoryCsv.NonBlank: its own contract states only the length. The filter is pinned down completely by `NonBlankAppend` (it distributes over concatenation, so order and multiplicity are kept) and `NonBlankSingle` (one line is kept exactly when it is non-blank).
- FolderScan.ScanComplete: states that each such file is reported, not that it is reported once, because in the abstract tree a listing may repeat a name. `ScanReportsOnce` proves "exactly once" for trees whose listings repeat no name (`UniqueNames`), as a real directory's do.
- FolderScan.Scan: every `stat` and `readDirectory` succeeds in the tree. In the code only `readFile` sits inside the `try`; a `stat` or `readDirectory` that throws (a directory without read permission, an entry removed during the walk) rejects the whole `getFolderStats` promise through every recursive `await`, so the command gets no inventory at all. The tree has no node for such a path, so the model covers only scans in which every listing succeeds; `ScanComplete`, `ScanReportsOnce` and `UnreadableFileSkipped` are about those scans.
- AccumulatingLedger.WebViewProvider.OnDidSave, PositionalLedger.WebViewProvider.OnDidSave: the active path is compared with the saved path as an `Option`. `undefined` never equals a path.

=== FILE: accumulating_ledger.dfy ===
/**
 * The history ledger of unuse/260113/WebViewProvider.js: a `historyMap` from
 * file path to day records, counted in grapheme segments free of `[\s\t\n\r]`.
 * A save ADDS the positive part of the change in count to `addedCount` and the
 * negative part to `removedCount`; a rename moves a file's history to its new path.
 */
module AccumulatingLedger {
  import opened Wrappers
  import opened Days
  import CharacterCounter

  /** Today's existing record after `updateHistory` with the new count. */
  function Accumulate(rec: DayRecord, count: nat): (s: DayRecord)
    ensures s.date == rec.date && s.charCount == count
    ensures s.addedCount >= rec.addedCount && s.removedCount >= rec.removedCount
    ensures (s.addedCount - rec.addedCount) - (s.removedCount - rec.removedCount) == count - rec.charCount
    ensures s.addedCount == rec.addedCount || s.removedCount == rec.removedCount
    ensures rec.charCount == count ==> s == rec
  {
    var diff := count - rec.charCount;
    if diff > 0 then rec.(addedCount := rec.addedCount + diff, charCount := count)
    else if diff < 0 then rec.(removedCount := rec.removedCount - diff, charCount := count)
    else rec.(charCount := count)
  }

  /** One file's history after `updateHistory` with the new count. */
  function RecordEdit(history: seq<DayRecord>, date: string, count: nat): (r: seq<DayRecord>)
    ensures UniqueDates(history, DayDate) ==> UniqueDates(r, DayDate)
    ensures CountsNonNegative(history) ==> CountsNonNegative(r)
    ensures |history| <= |r| <= |history| + 1
    ensures forall j :: 0 <= j < |history| && history[j].date != date ==> r[j] == history[j]
    ensures FindDate(history, DayDate, date).None? ==>
      r == history + [DayRecord(date, count, 0, count)] && FindDate(r, DayDate, date) == Some(|history|)
    ensures FindDate(history, DayDate, date).Some? ==>
      var i := FindDate(history, DayDate, date).value;
      |r| == |history| && FindDate(r, DayDate, date) == Some(i) && r[i] == Accumulate(history[i], count)
  {
    match FindDate(history, DayDate, date)
    case None =>
      var rec := DayRecord(date, count, 0, count);
      FindAfterAppend(history, DayDate, rec);
      AppendKeepsUnique(history, DayDate, rec);
      CountsAfterAppend(history, rec);
      history + [rec]
    case Some(i) =>
      var rec := Accumulate(history[i], count);
      FindAfterReplace(history, DayDate, i, rec);
      ReplaceKeepsUnique(history, DayDate, i, rec);
      CountsAfterReplace(history, i, rec);
      history[i := rec]
  }

  /** One file's history after `setActiveFile`: a zero record for the day unless one exists. */
  function OpenDay(history: seq<DayRecord>, date: string, count: nat): (r: seq<DayRecord>)
    ensures UniqueDates(history, DayDate) ==> UniqueDates(r, DayDate)
    ensures CountsNonNegative(history) ==> CountsNonNegative(r)
    ensures FindDate(history, DayDate, date).Some? ==> r == history
    ensures FindDate(history, DayDate, date).None? ==>
      r == history + [DayRecord(date, 0, 0, count)] && FindDate(r, DayDate, date) == Some(|history|)
  {
    match FindDate(history, DayDate, date)
    case None =>
      var rec := DayRecord(date, 0, 0, count);
      FindAfterAppend(history, DayDate, rec);
      AppendKeepsUnique(history, DayDate, rec);
      CountsAfterAppend(history, rec);
      history + [rec]
    case Some(_) => history
  }

  /** A second `updateHistory` with the same content changes nothing. */
  lemma RecordEditIdempotent(history: seq<DayRecord>, date: string, count: nat)
    ensures RecordEdit(RecordEdit(history, date, count), date, count) == RecordEdit(history, date, count)
  {
    var once := RecordEdit(history, date, count);
    var i := FindDate(once, DayDate, date).value;
    assert once[i] == Accumulate(once[i], count);
    assert once[i := once[i]] == once;
  }

  /** Activating twice on one day adds no second record. */
  lemma OpenDayIdempotent(history: seq<DayRecord>, date: string, first: nat, second: nat)
    ensures OpenDay(OpenDay(history, date, first), date, second) == OpenDay(history, date, first)
  {
  }

  /** The history after a same-day sequence of saves with the given counts. */
  function RecordEdits(history: seq<DayRecord>, date: string, counts: seq<nat>): (r: seq<DayRecord>)
    decreases |counts|
  {
    if counts == [] then history
    else RecordEdit(RecordEdits(history, date, counts[..|counts| - 1]), date, counts[|counts| - 1])
  }

  /** Today's net change `addedCount − removedCount`, or 0 without a record. */
  function NetOf(history: seq<DayRecord>, date: string): int {
    match FindDate(history, DayDate, date)
    case None => 0
    case Some(i) => history[i].addedCount - history[i].removedCount
  }

  /** Today's recorded `charCount`, or 0 without a record. */
  function CountOf(history: seq<DayRecord>, date: string): int {
    match FindDate(history, DayDate, date)
    case None => 0
    case Some(i) => history[i].charCount
  }

  /**
   * Net-delta conservation: over any same-day sequence of saves, the change in
   * `addedCount − removedCount` equals the last count minus the count the day
   * started from (0 when the day had no record), whatever the intermediate signs.
   */
  lemma {:induction false} NetDeltaConservation(history: seq<DayRecord>, date: string, counts: seq<nat>)
    requires counts != []
    ensures NetOf(RecordEdits(history, date, counts), date) - NetOf(history, date)
            == counts[|counts| - 1] - CountOf(history, date)
    decreases |counts|
  {
    var init := counts[..|counts| - 1];
    var before := RecordEdits(history, date, init);
    var last := counts[|counts| - 1];
    assert RecordEdits(history, date, counts) == RecordEdit(before, date, last);
    NetDeltaStep(before, date, last);
    if init != [] {
      NetDeltaConservation(history, date, init);
      RecordedCountIsLast(history, date, init);
      assert CountOf(before, date) == init[|init| - 1];
    }
  }

  /** One save moves today's net change by the new count minus the recorded one. */
  lemma NetDeltaStep(history: seq<DayRecord>, date: string, count: nat)
    ensures NetOf(RecordEdit(history, date, count), date) - NetOf(history, date) == count - CountOf(history, date)
  {
  }

  /** After at least one save of the day, today's `charCount` is the last count saved. */
  lemma RecordedCountIsLast(history: seq<DayRecord>, date: string, counts: seq<nat>)
    requires counts != []
    ensures FindDate(RecordEdits(history, date, counts), DayDate, date).Some?
    ensures CountOf(RecordEdits(history, date, counts), date) == counts[|counts| - 1]
  {
  }

  /** The state of one provider, as a value (for stating what a sequence of renames does). */
  datatype ProviderState = ProviderState(
    activeFilePath: Option<string>,
    previousContent: string,
    historyMap: map<string, seq<DayRecord>>)

  /** A rename event `{oldUri, newUri}`, by file-system path. */
  datatype Rename = Rename(oldPath: string, newPath: string)

  /** `historyMap.set(newPath, historyMap.get(oldPath)); historyMap.delete(oldPath)`. */
  function MoveHistory(m: map<string, seq<DayRecord>>, oldPath: string, newPath: string): (r: map<string, seq<DayRecord>>)
    requires oldPath in m
    ensures oldPath !in r
    ensures oldPath != newPath ==> newPath in r && r[newPath] == m[oldPath]
    ensures forall p :: p != oldPath && p != newPath ==> (p in r <==> p in m) && (p in r ==> r[p] == m[p])
    ensures oldPath != newPath ==> r.Keys == m.Keys - {oldPath} + {newPath}
  {
    m[newPath := m[oldPath]] - {oldPath}
  }

  /** At most one record per date in every history, and no negative count. */
  ghost predicate ValidHistories(m: map<string, seq<DayRecord>>) {
    forall p :: p in m ==> UniqueDates(m[p], DayDate) && CountsNonNegative(m[p])
  }

  /** Moving a history keeps every history well formed. */
  lemma MoveKeepsValid(m: map<string, seq<DayRecord>>, oldPath: string, newPath: string)
    requires ValidHistories(m) && oldPath in m
    ensures ValidHistories(MoveHistory(m, oldPath, newPath))
  {
  }

  /** One rename handled by the `onDidRenameFiles` listener; `openDocs` gives the text of open documents. */
  function RenameOne(st: ProviderState, f: Rename, openDocs: map<string, string>): (r: ProviderState)
    ensures ValidHistories(st.historyMap) ==> ValidHistories(r.historyMap)
    ensures f.oldPath !in st.historyMap ==> r == st
    ensures f.oldPath in st.historyMap ==> r.historyMap == MoveHistory(st.historyMap, f.oldPath, f.newPath)
    ensures f.oldPath in st.historyMap && st.activeFilePath == Some(f.oldPath) ==>
      r.activeFilePath == Some(f.newPath)
      && r.previousContent == (if f.newPath in openDocs then openDocs[f.newPath] else "")
    ensures st.activeFilePath != Some(f.oldPath) ==>
      r.activeFilePath == st.activeFilePath && r.previousContent == st.previousContent
  {
    if f.oldPath !in st.historyMap then st
    else
      var moved := st.(historyMap := MoveHistory(st.historyMap, f.oldPath, f.newPath));
      if st.activeFilePath == Some(f.oldPath) then
        moved.(activeFilePath := Some(f.newPath),
               previousContent := if f.newPath in openDocs then openDocs[f.newPath] else "")
      else moved
  }

  /** The renames of one event, handled in order. */
  function RenameAll(st: ProviderState, files: seq<Rename>, openDocs: map<string, string>): (r: ProviderState)
    ensures ValidHistories(st.historyMap) ==> ValidHistories(r.historyMap)
    ensures forall p :: p in r.historyMap ==> p in st.historyMap || exists f :: f in files && f.newPath == p
    decreases |files|
  {
    if files == [] then st
    else RenameOne(RenameAll(st, files[..|files| - 1], openDocs), files[|files| - 1], openDocs)
  }

  /** Renaming keeps every history's dates unique: a rename only moves whole histories. */
  lemma {:induction false} RenameAllKeepsHistories(st: ProviderState, files: seq<Rename>, openDocs: map<string, string>)
    ensures forall p :: p in RenameAll(st, files, openDocs).historyMap ==>
      exists q :: q in st.historyMap && RenameAll(st, files, openDocs).historyMap[p] == st.historyMap[q]
    decreases |files|
  {
    if files != [] {
      RenameAllKeepsHistories(st, files[..|files| - 1], openDocs);
    }
  }

  /** Renaming a file to its own path deletes its history, since the delete follows the set. */
  lemma RenameToSamePathDropsHistory(st: ProviderState, path: string, openDocs: map<string, string>)
    requires path in st.historyMap
    ensures path !in RenameOne(st, Rename(path, path), openDocs).historyMap
  {
  }

  /** One `WebViewProvider` of the accumulating variant. */
  class WebViewProvider {
    /** `new Intl.Segmenter('ja', { granularity: 'grapheme' })`. */
    const segmenter: CharacterCounter.Segmenter
    var activeFilePath: Option<string>
    var previousContent: string
    var historyMap: map<string, seq<DayRecord>>

    /** At most one record per date in every history, and no negative count. */
    ghost predicate Valid()
      reads this
    {
      ValidHistories(historyMap)
    }

    function State(): ProviderState
      reads this
    {
      ProviderState(activeFilePath, previousContent, historyMap)
    }

    /** `this.activeFilePath` is truthy. */
    predicate HasActiveFile()
      reads this
    {
      activeFilePath.Some? && activeFilePath.value != ""
    }

    /** `countEffectiveChars(text)`. */
    function CountEffectiveChars(text: string): nat {
      CharacterCounter.CountEffectiveChars(segmenter, text)
    }

    constructor (segmenter: CharacterCounter.Segmenter)
      ensures Valid() && this.segmenter == segmenter
      ensures activeFilePath == None && previousContent == "" && historyMap == map[]
    {
      this.segmenter := segmenter;
      activeFilePath := None;
      previousContent := "";
      historyMap := map[];
    }

    /** `setActiveFile(filePath)`; `docText` is the open document's text, if the file is open. */
    method SetActiveFile(filePath: string, docText: Option<string>, date: string)
      requires Valid()
      modifies this
      ensures Valid()
      ensures activeFilePath == Some(filePath) && previousContent == docText.GetOr("")
      ensures historyMap == old(historyMap)[filePath := OpenDay(HistoryOf(old(historyMap), filePath), date, CountEffectiveChars(docText.GetOr("")))]
    {
      activeFilePath := Some(filePath);
      previousContent := docText.GetOr("");
      var history := HistoryOf(historyMap, filePath);
      ghost var expected := OpenDay(history, date, CountEffectiveChars(previousContent));
      assert UniqueDates(expected, DayDate) && CountsNonNegative(expected);
      var today := FindDate(history, DayDate, date);
      if today.None? {
        history := history + [DayRecord(date, 0, 0, CountEffectiveChars(previousContent))];
        assert history == expected;
        historyMap := historyMap[filePath := history];
      } else {
        assert history == expected;
        assert filePath in historyMap && historyMap[filePath := history] == historyMap;
      }
    }

    /** `updateHistory(newContent)`. */
    method UpdateHistory(newContent: string, date: string)
      requires Valid()
      modifies this
      ensures Valid() && activeFilePath == old(activeFilePath)
      ensures !HasActiveFile() ==> historyMap == old(historyMap) && previousContent == old(previousContent)
      ensures HasActiveFile() ==>
        historyMap == old(historyMap)[activeFilePath.value := RecordEdit(HistoryOf(old(historyMap), activeFilePath.value), date, CountEffectiveChars(newContent))]
        && previousContent == newContent
    {
      if !HasActiveFile() {
        return;
      }
      var path := activeFilePath.value;
      var effectiveChars := CountEffectiveChars(newContent);
      var history := HistoryOf(historyMap, path);
      ghost var expected := RecordEdit(history, date, effectiveChars);
      assert UniqueDates(expected, DayDate) && CountsNonNegative(expected);
      var today := FindDate(history, DayDate, date);
      if today.Some? {
        var i := today.value;
        var prevCharCount := history[i].charCount;
        var diff := effectiveChars - prevCharCount;
        var rec := history[i];
        if diff > 0 {
          rec := rec.(addedCount := rec.addedCount + diff);
        } else if diff < 0 {
          rec := rec.(removedCount := rec.removedCount + -diff);
        }
        rec := rec.(charCount := effectiveChars);
        assert rec == Accumulate(history[i], effectiveChars);
        history := history[i := rec];
      } else {
        history := history + [DayRecord(date, effectiveChars, 0, effectiveChars)];
      }
      assert history == expected;
      historyMap := historyMap[path := history];
      previousContent := newContent;
    }

    /** The `onDidSaveTextDocument` listener: only a save of the active file is recorded. */
    method OnDidSave(savedPath: string, text: string, date: string)
      requires Valid()
      modifies this
      ensures Valid() && activeFilePath == old(activeFilePath)
      ensures activeFilePath != Some(savedPath) || savedPath == "" ==>
        historyMap == old(historyMap) && previousContent == old(previousContent)
      ensures activeFilePath == Some(savedPath) && savedPath != "" ==>
        historyMap == old(historyMap)[savedPath := RecordEdit(HistoryOf(old(historyMap), savedPath), date, CountEffectiveChars(text))]
        && previousContent == text
    {
      if activeFilePath == Some(savedPath) {
        UpdateHistory(text, date);
      }
    }

    /** The `onDidRenameFiles` listener over the event's renames, in order. */
    method OnDidRenameFiles(files: seq<Rename>, openDocs: map<string, string>)
      requires Valid()
      modifies this
      ensures Valid()
      ensures State() == RenameAll(old(State()), files, openDocs)
    {
      var k := 0;
      while k < |files|
        invariant 0 <= k <= |files|
        invariant Valid()
        invariant State() == RenameAll(old(State()), files[..k], openDocs)
      {
        var f := files[k];
        assert files[..k + 1][..k] == files[..k] && files[..k + 1][k] == f;
        HandleRename(f, openDocs);
        k := k + 1;
      }
      assert files[..k] == files;
    }

    /** The body of the listener's loop: one rename. */
    method HandleRename(f: Rename, openDocs: map<string, string>)
      requires Valid()
      modifies this
      ensures Valid()
      ensures State() == RenameOne(old(State()), f, openDocs)
    {
      if f.oldPath in historyMap {
        ghost var before := historyMap;
        var history := historyMap[f.oldPath];
        historyMap := historyMap[f.newPath := history];
        historyMap := historyMap - {f.oldPath};
        assert historyMap == MoveHistory(before, f.oldPath, f.newPath);
        MoveKeepsValid(before, f.oldPath, f.newPath);
        if activeFilePath == Some(f.oldPath) {
          activeFilePath := Some(f.newPath);
          previousContent := if f.newPath in openDocs then openDocs[f.newPath] else "";
        }
      }
    }
  }
}

=== FILE: character_counter.dfy ===
/**
 * Grapheme-based effective-character counting: `CharacterCounter.count`
 * (src/utils/characterCounter.ts) and the `countEffectiveChars` methods of the
 * older providers. `Intl.Segmenter` with grapheme granularity is a parameter
 * of the model: any function that cuts a text into non-empty pieces whose
 * concatenation is the text (the extended grapheme clusters of Unicode
 * Standard Annex #29, section 3, are one such cut).
 */
module CharacterCounter {
  import opened JsText
  import CodePointCounter

  /** `new Intl.Segmenter('ja', { granularity: 'grapheme' })`, seen as a function from text to segments. */
  type Segmenter = string -> seq<string>

  /** The text a list of segments spells out. */
  function Concat(pieces: seq<string>): string
  {
    if pieces == [] then [] else pieces[0] + Concat(pieces[1..])
  }

  /** `pieces` is a segmentation of `text`: non-empty pieces, concatenated in order. */
  predicate IsSegmentation(text: string, pieces: seq<string>) {
    (forall i :: 0 <= i < |pieces| ==> pieces[i] != []) && Concat(pieces) == text
  }

  /** The regular-expression test on one segment: some code point of it is in the class. */
  predicate ContainsSpace(segment: string, isSpace: int -> bool) {
    exists k :: 0 <= k < |segment| && isSpace(segment[k] as int)
  }

  /** `segments.filter(seg => !re.test(seg.segment))`. */
  function KeptSegments(pieces: seq<string>, isSpace: int -> bool): (kept: seq<string>)
    ensures |kept| <= |pieces|
    ensures forall s :: s in kept ==> s in pieces && !ContainsSpace(s, isSpace)
  {
    if pieces == [] then []
    else (if ContainsSpace(pieces[0], isSpace) then [] else [pieces[0]]) + KeptSegments(pieces[1..], isSpace)
  }

  /** `segments.filter(...).length`. */
  function CountSegments(pieces: seq<string>, isSpace: int -> bool): (n: nat)
    ensures n <= |pieces|
  {
    |KeptSegments(pieces, isSpace)|
  }

  /** `CharacterCounter.count(text)`, which tests each segment with `[\s\t\n\r　]`. */
  function Count(segmenter: Segmenter, text: string): (n: nat)
    ensures IsSegmentation(text, segmenter(text)) ==> n <= |text|
  {
    CountSegmentsAtMostLength(text, segmenter(text), IsSpaceOrIdeographicSpace);
    CountSegments(segmenter(text), IsSpaceOrIdeographicSpace)
  }

  /** `countEffectiveChars(text)` of the older providers, which test each segment with `[\s\t\n\r]`. */
  function CountEffectiveChars(segmenter: Segmenter, text: string): (n: nat)
    ensures IsSegmentation(text, segmenter(text)) ==> n <= |text|
  {
    CountSegmentsAtMostLength(text, segmenter(text), IsSpaceTabNlCr);
    CountSegments(segmenter(text), IsSpaceTabNlCr)
  }

  /** A segmentation has at most as many pieces as the text has code points. */
  lemma {:induction false} SegmentationNoLongerThanText(text: string, pieces: seq<string>)
    requires IsSegmentation(text, pieces)
    ensures |pieces| <= |text|
    decreases pieces
  {
    if pieces != [] {
      SegmentationNoLongerThanText(Concat(pieces[1..]), pieces[1..]);
    }
  }

  /** The count never exceeds the number of segments, nor the length of the text. */
  lemma CountSegmentsAtMostLength(text: string, pieces: seq<string>, isSpace: int -> bool)
    ensures IsSegmentation(text, pieces) ==> CountSegments(pieces, isSpace) <= |pieces| <= |text|
  {
    if IsSegmentation(text, pieces) {
      SegmentationNoLongerThanText(text, pieces);
    }
  }

  /** Counting is additive over concatenation of segment lists. */
  lemma {:induction false} CountSegmentsAppend(a: seq<string>, b: seq<string>, isSpace: int -> bool)
    ensures CountSegments(a + b, isSpace) == CountSegments(a, isSpace) + CountSegments(b, isSpace)
  {
    if a == [] {
      assert a + b == b;
    } else {
      assert (a + b)[0] == a[0];
      assert (a + b)[1..] == a[1..] + b;
      CountSegmentsAppend(a[1..], b, isSpace);
    }
  }

  /**
   * One segment counts 1 exactly when none of its code points is whitespace:
   * a cluster of several code points counts once, and a segment is dropped as
   * soon as any code point in it is whitespace, not only when all are.
   */
  lemma CountSingleSegment(segment: string, isSpace: int -> bool)
    ensures CountSegments([segment], isSpace) == 1 <==> !ContainsSpace(segment, isSpace)
    ensures CountSegments([segment], isSpace) == 0 <==> ContainsSpace(segment, isSpace)
  {
    assert [segment][1..] == [];
  }

  /** The empty text has no segments, hence count 0. */
  lemma EmptyTextCountsZero(pieces: seq<string>, isSpace: int -> bool)
    requires IsSegmentation([], pieces)
    ensures pieces == [] && CountSegments(pieces, isSpace) == 0
  {
    SegmentationNoLongerThanText([], pieces);
  }

  /** A text made only of whitespace counts 0, whatever its segmentation. */
  lemma {:induction false} AllSpaceTextCountsZero(text: string, pieces: seq<string>, isSpace: int -> bool)
    requires IsSegmentation(text, pieces)
    requires forall k :: 0 <= k < |text| ==> isSpace(text[k] as int)
    ensures CountSegments(pieces, isSpace) == 0
    decreases pieces
  {
    if pieces != [] {
      var head := pieces[0];
      var rest := Concat(pieces[1..]);
      assert text == head + rest;
      assert text[0] == head[0];
      assert ContainsSpace(head, isSpace);
      assert forall k :: 0 <= k < |rest| ==> rest[k] == text[|head| + k];
      AllSpaceTextCountsZero(rest, pieces[1..], isSpace);
    }
  }

  /** `CharacterCounter.count` is 0 on the empty text and on whitespace-only text. */
  lemma CountZeroOnBlank(segmenter: Segmenter, text: string)
    requires IsSegmentation(text, segmenter(text))
    requires forall k :: 0 <= k < |text| ==> IsSpaceOrIdeographicSpace(text[k] as int)
    ensures Count(segmenter, text) == 0
  {
    AllSpaceTextCountsZero(text, segmenter(text), IsSpaceOrIdeographicSpace);
  }

  /**
   * Grapheme counting never exceeds code-point counting (`countChars`): every
   * kept segment holds at least one non-whitespace code point of its own.
   */
  lemma {:induction false} CountAtMostCountChars(text: string, pieces: seq<string>)
    requires IsSegmentation(text, pieces)
    ensures CountSegments(pieces, IsRegexSpace) <= CodePointCounter.CountChars(text)
    decreases pieces
  {
    if pieces != [] {
      var head := pieces[0];
      var rest := Concat(pieces[1..]);
      assert text == head + rest;
      CodePointCounter.CountCharsAppend(head, rest);
      assert pieces == [head] + pieces[1..];
      CountSegmentsAppend([head], pieces[1..], IsRegexSpace);
      CountSingleSegment(head, IsRegexSpace);
      if !ContainsSpace(head, IsRegexSpace) {
        CodePointCounter.CountCharsFullIffNoSpace(head);
      }
      CountAtMostCountChars(rest, pieces[1..]);
    }
  }

  /** Two whitespace classes that agree on every code point give the same count. */
  lemma {:induction false} CountSegmentsSameClass(pieces: seq<string>, p: int -> bool, q: int -> bool)
    requires forall c :: p(c) == q(c)
    ensures CountSegments(pieces, p) == CountSegments(pieces, q)
  {
    if pieces != [] {
      assert ContainsSpace(pieces[0], p) == ContainsSpace(pieces[0], q);
      CountSegmentsSameClass(pieces[1..], p, q);
    }
  }

  /** `CharacterCounter.count` and `countEffectiveChars` never exceed `countChars` of the same text. */
  lemma CountAtMostCodePointCount(segmenter: Segmenter, text: string)
    requires IsSegmentation(text, segmenter(text))
    ensures Count(segmenter, text) <= CodePointCounter.CountChars(text)
    ensures CountEffectiveChars(segmenter, text) <= CodePointCounter.CountChars(text)
  {
    forall c: int ensures IsSpaceOrIdeographicSpace(c) == IsRegexSpace(c) && IsSpaceTabNlCr(c) == IsRegexSpace(c) {
      WhitespaceClassesAgree(c);
    }
    CountSegmentsSameClass(segmenter(text), IsSpaceOrIdeographicSpace, IsRegexSpace);
    CountSegmentsSameClass(segmenter(text), IsSpaceTabNlCr, IsRegexSpace);
    CountAtMostCountChars(text, segmenter(text));
  }
}

=== FILE: code_point_counter.dfy ===
/**
 * `countChars`, defined identically in src/WebViewProvider.ts,
 * src/TreeDataProvider.ts and unuse/EditLogProvider.ts:
 * `Array.from(text).filter(ch => !/\s/.test(ch)).length`.
 * `Array.from` iterates code points, not grapheme clusters.
 */
module CodePointCounter {
  import opened JsText

  /** The code points of a (well-formed) text, which `Array.from` yields one by one. */
  function CodePoints(text: string): (cps: seq<int>)
    ensures |cps| == |text|
    ensures forall k :: 0 <= k < |text| ==> cps[k] == text[k] as int
  {
    seq(|text|, k requires 0 <= k < |text| => text[k] as int)
  }

  /** How many of the code points do not match `\s`. */
  function CountNonSpace(cps: seq<int>): (n: nat)
    ensures n <= |cps|
  {
    if cps == [] then 0
    else (if IsRegexSpace(cps[0]) then 0 else 1) + CountNonSpace(cps[1..])
  }

  /** `countChars(text)`. */
  function CountChars(text: string): (n: nat)
    ensures n <= |text|
  {
    CountNonSpace(CodePoints(text))
  }

  /**
   * `Array.from` over an arbitrary ECMAScript string given as code units: a high
   * surrogate followed by a low one is one code point, any other unit (a lone
   * surrogate included) is a code point of its own.
   */
  function DecodeUtf16(units: seq<Unit>): (cps: seq<int>)
    ensures |cps| <= |units|
    ensures units != [] ==> cps != []
  {
    if units == [] then []
    else if |units| >= 2 && IsHighSurrogate(units[0] as int) && IsLowSurrogate(units[1] as int) then
      [PairValue(units[0] as int, units[1] as int)] + DecodeUtf16(units[2..])
    else
      [units[0] as int] + DecodeUtf16(units[1..])
  }

  /** `countChars` applied to a string given by its code units (for instance a `slice` of one). */
  function CountCharsOfUnits(units: seq<Unit>): (n: nat)
    ensures n <= |units|
  {
    CountNonSpace(DecodeUtf16(units))
  }

  /** Decoding the UTF-16 form of a text gives back its code points. */
  lemma {:induction false} DecodeUtf16OfText(text: string)
    ensures DecodeUtf16(Utf16(text)) == CodePoints(text)
  {
    if text != [] {
      var head := Utf16Of(text[0]);
      var rest := Utf16(text[1..]);
      assert Utf16(text) == head + rest;
      DecodeUtf16OfText(text[1..]);
      if |head| == 1 {
        assert (head + rest)[0] == head[0];
        assert (head + rest)[1..] == rest;
      } else {
        assert (head + rest)[0] == head[0] && (head + rest)[1] == head[1];
        assert (head + rest)[2..] == rest;
      }
      assert CodePoints(text) == [text[0] as int] + CodePoints(text[1..]);
    }
  }

  /** Counting the code units of a text's UTF-16 form agrees with counting the text. */
  lemma CountCharsOfUtf16(text: string)
    ensures CountCharsOfUnits(Utf16(text)) == CountChars(text)
  {
    DecodeUtf16OfText(text);
  }

  /** `CountNonSpace` is additive over concatenation. */
  lemma {:induction false} CountNonSpaceAppend(a: seq<int>, b: seq<int>)
    ensures CountNonSpace(a + b) == CountNonSpace(a) + CountNonSpace(b)
  {
    if a == [] {
      assert a + b == b;
    } else {
      assert (a + b)[0] == a[0];
      assert (a + b)[1..] == a[1..] + b;
      CountNonSpaceAppend(a[1..], b);
    }
  }

  /** `countChars` is additive over concatenation of texts. */
  lemma CountCharsAppend(a: string, b: string)
    ensures CountChars(a + b) == CountChars(a) + CountChars(b)
  {
    assert CodePoints(a + b) == CodePoints(a) + CodePoints(b);
    CountNonSpaceAppend(CodePoints(a), CodePoints(b));
  }

  /** A single code point counts one exactly when it does not match `\s`. */
  lemma CountCharsSingle(c: char)
    ensures CountChars([c]) == 1 <==> !IsRegexSpace(c as int)
    ensures CountChars([c]) == 0 <==> IsRegexSpace(c as int)
  {
    assert CodePoints([c]) == [c as int];
    assert CodePoints([c])[1..] == [];
  }

  /** `countChars` is 0 exactly when every code point of the text matches `\s` (the empty text included). */
  lemma {:induction false} CountCharsZeroIffAllSpace(text: string)
    ensures CountChars(text) == 0 <==> forall k :: 0 <= k < |text| ==> IsRegexSpace(text[k] as int)
  {
    if text != [] {
      assert text == [text[0]] + text[1..];
      CountCharsAppend([text[0]], text[1..]);
      CountCharsSingle(text[0]);
      CountCharsZeroIffAllSpace(text[1..]);
      assert forall k :: 1 <= k < |text| ==> text[k] == text[1..][k - 1];
    }
  }

  /** `countChars` equals the length exactly when no code point matches `\s`. */
  lemma {:induction false} CountCharsFullIffNoSpace(text: string)
    ensures CountChars(text) == |text| <==> forall k :: 0 <= k < |text| ==> !IsRegexSpace(text[k] as int)
  {
    if text != [] {
      assert text == [text[0]] + text[1..];
      CountCharsAppend([text[0]], text[1..]);
      CountCharsSingle(text[0]);
      CountCharsFullIffNoSpace(text[1..]);
      assert forall k :: 1 <= k < |text| ==> text[k] == text[1..][k - 1];
    }
  }
}

=== FILE: days.dfy ===
/**
 * Day records shared by the history ledgers, and the two read operations
 * every ledger performs on a file's history: `history.find(h => h.date === d)`
 * and the date-descending copy `[...history].sort((a, b) => b.date.localeCompare(a.date))`.
 * Dates are opaque strings supplied by the caller.
 */
module Days {
  import opened Wrappers

  /** `FileHistory`/`HistoryEntry`: one day of one file, with added/removed counts. */
  datatype DayRecord = DayRecord(date: string, addedCount: int, removedCount: int, charCount: int)

  /** `FileHistory` of the tree-view variant: one day of one file, with an edit total. */
  datatype EditedDay = EditedDay(date: string, editedCount: int, charCount: int)

  function DayDate(r: DayRecord): string { r.date }

  function EditedDate(r: EditedDay): string { r.date }

  /** `history.find(h => h.date === date)`, as the index of the first match. */
  function FindDate<T>(history: seq<T>, dateOf: T -> string, date: string): (r: Option<nat>)
    ensures r.Some? ==> r.value < |history| && dateOf(history[r.value]) == date
    ensures r.Some? ==> forall j :: 0 <= j < r.value ==> dateOf(history[j]) != date
    ensures r.None? <==> forall j :: 0 <= j < |history| ==> dateOf(history[j]) != date
  {
    if history == [] then None
    else if dateOf(history[0]) == date then Some(0)
    else match FindDate(history[1..], dateOf, date)
      case None => None
      case Some(i) => Some(i + 1)
  }

  /** At most one record per date. */
  predicate UniqueDates<T>(history: seq<T>, dateOf: T -> string) {
    forall i, j :: 0 <= i < j < |history| ==> dateOf(history[i]) != dateOf(history[j])
  }

  /** With unique dates, the record `find` returns is the only one of its date. */
  lemma FoundIsOnly<T>(history: seq<T>, dateOf: T -> string, date: string)
    requires UniqueDates(history, dateOf)
    requires FindDate(history, dateOf, date).Some?
    ensures forall j :: 0 <= j < |history| && dateOf(history[j]) == date ==> j == FindDate(history, dateOf, date).value
  {
  }

  /**
   * Code-point lexicographic order, standing for `localeCompare`:
   * `LexLe(a, b)` when `a` sorts before `b` or equals it.
   */
  predicate LexLe(a: string, b: string) {
    a == [] || (b != [] && (a[0] < b[0] || (a[0] == b[0] && LexLe(a[1..], b[1..]))))
  }

  lemma {:induction false} LexLeTotal(a: string, b: string)
    ensures LexLe(a, b) || LexLe(b, a)
  {
    if a != [] && b != [] && a[0] == b[0] {
      LexLeTotal(a[1..], b[1..]);
    }
  }

  lemma {:induction false} LexLeTransitive(a: string, b: string, c: string)
    requires LexLe(a, b) && LexLe(b, c)
    ensures LexLe(a, c)
  {
    if a != [] && b != [] && c != [] && a[0] == b[0] == c[0] {
      LexLeTransitive(a[1..], b[1..], c[1..]);
    }
  }

  lemma {:induction false} LexLeAntisymmetric(a: string, b: string)
    requires LexLe(a, b) && LexLe(b, a)
    ensures a == b
  {
    if a != [] && b != [] {
      LexLeAntisymmetric(a[1..], b[1..]);
      assert a == [a[0]] + a[1..] && b == [b[0]] + b[1..];
    }
  }

  /** Newest first: every record's date is at least that of every later record. */
  predicate SortedByDateDesc<T>(history: seq<T>, dateOf: T -> string) {
    forall i, j :: 0 <= i < j < |history| ==> LexLe(dateOf(history[j]), dateOf(history[i]))
  }

  /** Insert `x` into a date-descending list, before every record of an equal or older date. */
  function InsertByDateDesc<T(==)>(x: T, sorted: seq<T>, dateOf: T -> string): (r: seq<T>)
    requires SortedByDateDesc(sorted, dateOf)
    ensures SortedByDateDesc(r, dateOf)
    ensures multiset(r) == multiset(sorted) + multiset{x}
  {
    if sorted == [] then [x]
    else if LexLe(dateOf(sorted[0]), dateOf(x)) then
      InsertAtFront(x, sorted, dateOf);
      [x] + sorted
    else
      var rest := InsertByDateDesc(x, sorted[1..], dateOf);
      InsertBehindHead(x, sorted, rest, dateOf);
      [sorted[0]] + rest
  }

  /** `x` no older than the newest record goes in front. */
  lemma InsertAtFront<T>(x: T, sorted: seq<T>, dateOf: T -> string)
    requires SortedByDateDesc(sorted, dateOf) && sorted != []
    requires LexLe(dateOf(sorted[0]), dateOf(x))
    ensures SortedByDateDesc([x] + sorted, dateOf)
  {
    forall j | 0 <= j < |sorted| ensures LexLe(dateOf(sorted[j]), dateOf(x)) {
      if j > 0 { LexLeTransitive(dateOf(sorted[j]), dateOf(sorted[0]), dateOf(x)); }
    }
  }

  /** `x` older than the newest record goes into the tail, behind the head. */
  lemma InsertBehindHead<T>(x: T, sorted: seq<T>, rest: seq<T>, dateOf: T -> string)
    requires SortedByDateDesc(sorted, dateOf) && sorted != []
    requires !LexLe(dateOf(sorted[0]), dateOf(x))
    requires SortedByDateDesc(rest, dateOf)
    requires multiset(rest) == multiset(sorted[1..]) + multiset{x}
    ensures SortedByDateDesc([sorted[0]] + rest, dateOf)
    ensures multiset([sorted[0]] + rest) == multiset(sorted) + multiset{x}
  {
    LexLeTotal(dateOf(sorted[0]), dateOf(x));
    assert forall y :: y in multiset(rest) ==> y == x || y in sorted[1..];
    forall j | 0 <= j < |rest| ensures LexLe(dateOf(rest[j]), dateOf(sorted[0])) {
      assert rest[j] in multiset(rest);
    }
    assert sorted == [sorted[0]] + sorted[1..];
  }

  /**
   * The stable date-descending sort of a copy of `history` (the displayed order);
   * the stored history itself is a value and is not reordered.
   */
  function SortByDateDesc<T(==)>(history: seq<T>, dateOf: T -> string): (r: seq<T>)
    ensures SortedByDateDesc(r, dateOf)
    ensures multiset(r) == multiset(history)
    ensures |r| == |history|
  {
    if history == [] then []
    else
      assert history == [history[0]] + history[1..];
      InsertByDateDesc(history[0], SortByDateDesc(history[1..], dateOf), dateOf)
  }

  /** The history stored under `path`, or none yet (`map.get(path) || []`). */
  function HistoryOf<T>(m: map<string, seq<T>>, path: string): seq<T> {
    if path in m then m[path] else []
  }

  /** No count of the record is negative. */
  predicate NonNegativeCounts(r: DayRecord) {
    r.addedCount >= 0 && r.removedCount >= 0 && r.charCount >= 0
  }

  /** Every count of every record is non-negative. */
  predicate CountsNonNegative(history: seq<DayRecord>) {
    forall i :: 0 <= i < |history| ==> NonNegativeCounts(history[i])
  }

  lemma CountsAfterAppend(history: seq<DayRecord>, x: DayRecord)
    ensures CountsNonNegative(history) && NonNegativeCounts(x) ==> CountsNonNegative(history + [x])
  {
    assert forall j :: 0 <= j < |history| ==> (history + [x])[j] == history[j];
  }

  lemma CountsAfterReplace(history: seq<DayRecord>, i: nat, x: DayRecord)
    requires i < |history|
    ensures CountsNonNegative(history) && NonNegativeCounts(x) ==> CountsNonNegative(history[i := x])
  {
  }

  /** Appending a record of a date not yet present makes it the one `find` returns. */
  lemma FindAfterAppend<T>(history: seq<T>, dateOf: T -> string, x: T)
    requires FindDate(history, dateOf, dateOf(x)).None?
    ensures FindDate(history + [x], dateOf, dateOf(x)) == Some(|history|)
  {
    assert (history + [x])[|history|] == x;
    assert forall j :: 0 <= j < |history| ==> (history + [x])[j] == history[j];
  }

  /** Replacing the found record by one of the same date keeps it the one `find` returns. */
  lemma FindAfterReplace<T>(history: seq<T>, dateOf: T -> string, i: nat, x: T)
    requires FindDate(history, dateOf, dateOf(x)) == Some(i)
    ensures FindDate(history[i := x], dateOf, dateOf(x)) == Some(i)
  {
    assert history[i := x][i] == x;
    assert forall j :: 0 <= j < i ==> history[i := x][j] == history[j];
  }

  /** Appending a record of a date not yet present keeps the dates unique. */
  lemma AppendKeepsUnique<T>(history: seq<T>, dateOf: T -> string, x: T)
    requires FindDate(history, dateOf, dateOf(x)).None?
    ensures UniqueDates(history, dateOf) ==> UniqueDates(history + [x], dateOf)
  {
    forall i, j | UniqueDates(history, dateOf) && 0 <= i < j < |history| + 1
      ensures dateOf((history + [x])[i]) != dateOf((history + [x])[j])
    {
      if j == |history| {
        assert (history + [x])[i] == history[i];
      } else {
        assert (history + [x])[i] == history[i] && (history + [x])[j] == history[j];
      }
    }
  }

  /** Replacing a record by one of the same date keeps the dates unique. */
  lemma ReplaceKeepsUnique<T>(history: seq<T>, dateOf: T -> string, i: nat, x: T)
    requires i < |history| && dateOf(history[i]) == dateOf(x)
    ensures UniqueDates(history, dateOf) ==> UniqueDates(history[i := x], dateOf)
  {
  }
}

=== FILE: edit_log_view.dfy ===
/**
 * The webview `EditLogProvider` of unuse/EditLogProvider.ts: it only selects
 * the active file and shows that file's history, newest date first, from its
 * own module-level `fileStats` (same shape as the tree-view store).
 */
module EditLogView {
  import opened Wrappers
  import opened Days
  import opened TreeLedger

  class EditLogProvider {
    var activeFile: Option<string>
    const store: FileStatsStore

    /** `this.activeFile` is truthy: set, and not the empty string. */
    predicate HasActiveFile()
      reads this
    {
      activeFile.Some? && activeFile.value != ""
    }

    constructor (store: FileStatsStore)
      ensures this.store == store && activeFile == None
    {
      this.store := store;
      activeFile := None;
    }

    /** The list `update()` renders: empty without an active file or stats, else the history newest first. */
    function Shown(): (shown: seq<EditedDay>)
      reads this, store
      ensures !HasActiveFile() || activeFile.value !in store.stats ==> shown == []
      ensures HasActiveFile() && activeFile.value in store.stats ==>
        SortedByDateDesc(shown, EditedDate) && multiset(shown) == multiset(store.stats[activeFile.value].history)
    {
      ShownHistory(store.stats, activeFile)
    }

    /** `setActiveFile(filePath)`: the stats are not touched; returns what `update()` then shows. */
    method SetActiveFile(filePath: string) returns (shown: seq<EditedDay>)
      modifies this
      ensures activeFile == Some(filePath) && store.stats == old(store.stats)
      ensures shown == Shown()
      ensures filePath == "" || filePath !in store.stats ==> shown == []
      ensures filePath != "" && filePath in store.stats ==>
        SortedByDateDesc(shown, EditedDate) && multiset(shown) == multiset(store.stats[filePath].history)
    {
      activeFile := Some(filePath);
      shown := Shown();
    }
  }
}

=== FILE: edited_count_extension.dfy ===
/**
 * The two event handlers of unuse/extension.ts over the shared `fileStats` of
 * src/TreeDataProvider.ts: activating a file editor, and folding the content
 * changes of one edit into today's `editedCount`.
 */
module EditedCountExtension {
  import opened Wrappers
  import opened JsText
  import opened Days
  import opened TreeLedger
  import CodePointCounter

  /** The part of a `TextEditor` the activation handler reads. */
  datatype Editor = Editor(fsPath: string, isFileScheme: bool, text: string)

  /** One `TextDocumentContentChangeEvent`; offsets and lengths are in UTF-16 code units. */
  datatype Change = Change(rangeOffset: nat, rangeLength: nat, text: string)

  /** `change.rangeLength === 0 && /￼/.test(change.text)`: an uncommitted IME placeholder. */
  predicate IsImePlaceholder(change: Change) {
    change.rangeLength == 0 && HasObjectReplacement(change.text)
  }

  /** `/￼/.test(text)`: the text holds U+FFFC OBJECT REPLACEMENT CHARACTER. */
  predicate HasObjectReplacement(text: string) {
    exists k :: 0 <= k < |text| && text[k] == '￼'
  }

  function Min(a: nat, b: nat): nat { if a < b then a else b }

  /** `String.prototype.slice(start, end)` on code units, for `0 <= start <= end`. */
  function Slice(units: seq<Unit>, start: nat, end: nat): (r: seq<Unit>)
    requires start <= end
    ensures |r| <= end - start
    ensures end <= |units| ==> r == units[start..end]
    ensures start <= |units| < end ==> r == units[start..]
    ensures start >= |units| ==> r == []
  {
    units[Min(start, |units|)..Min(end, |units|)]
  }

  /** `removed`: the `countChars` of the replaced range, read from the document text. */
  function RemovedChars(change: Change, doc: string): (n: nat)
    ensures change.rangeLength == 0 ==> n == 0
    ensures n <= change.rangeLength
  {
    if change.rangeLength > 0 then
      CodePointCounter.CountCharsOfUnits(Slice(Utf16(doc), change.rangeOffset, change.rangeOffset + change.rangeLength))
    else 0
  }

  /** What one change adds to `edited`: `Math.max(added, removed)`, or nothing for a placeholder. */
  function Contribution(change: Change, doc: string): (n: nat)
    ensures IsImePlaceholder(change) ==> n == 0
    ensures !IsImePlaceholder(change) ==>
      n >= CodePointCounter.CountChars(change.text) && n >= RemovedChars(change, doc)
      && (n == CodePointCounter.CountChars(change.text) || n == RemovedChars(change, doc))
    ensures n <= |change.text| + change.rangeLength
  {
    if IsImePlaceholder(change) then 0
    else
      var added := CodePointCounter.CountChars(change.text);
      var removed := RemovedChars(change, doc);
      if added < removed then removed else added
  }

  /** `edited` after the `forEach` over the first `|changes|` changes. */
  function EditedSum(changes: seq<Change>, doc: string): (n: nat)
    ensures n <= ChangeVolume(changes)
  {
    if changes == [] then 0
    else EditedSum(changes[..|changes| - 1], doc) + Contribution(changes[|changes| - 1], doc)
  }

  /** The fold is additive over a split of the change list. */
  lemma {:induction false} EditedSumAppend(a: seq<Change>, b: seq<Change>, doc: string)
    ensures EditedSum(a + b, doc) == EditedSum(a, doc) + EditedSum(b, doc)
    decreases |b|
  {
    if b == [] {
      assert a + b == a;
    } else {
      var init := b[..|b| - 1];
      assert (a + b)[..|a + b| - 1] == a + init;
      assert (a + b)[|a + b| - 1] == b[|b| - 1];
      EditedSumAppend(a, init, doc);
    }
  }

  /** An event made only of IME placeholders edits nothing. */
  lemma {:induction false} PlaceholdersEditNothing(changes: seq<Change>, doc: string)
    requires forall i :: 0 <= i < |changes| ==> IsImePlaceholder(changes[i])
    ensures EditedSum(changes, doc) == 0
  {
    if changes != [] {
      PlaceholdersEditNothing(changes[..|changes| - 1], doc);
    }
  }

  /** The inserted code points plus the replaced code units of a change list. */
  function ChangeVolume(changes: seq<Change>): nat {
    if changes == [] then 0
    else ChangeVolume(changes[..|changes| - 1]) + |changes[|changes| - 1].text| + changes[|changes| - 1].rangeLength
  }

  /** One more change adds its contribution to the prefix sum. */
  lemma EditedSumStep(changes: seq<Change>, i: nat, doc: string)
    requires i < |changes|
    ensures EditedSum(changes[..i + 1], doc) == EditedSum(changes[..i], doc) + Contribution(changes[i], doc)
  {
    assert changes[..i + 1][..i] == changes[..i];
  }

  /** The callback `forEach` runs on one change: what it adds to `edited`, step by step as `Contribution` states it. */
  method ChangeContribution(change: Change, doc: string) returns (contribution: nat)
    ensures contribution == Contribution(change, doc)
  {
    contribution := 0;
    if change.rangeLength == 0 && HasObjectReplacement(change.text) {
      return;
    }
    var added := CodePointCounter.CountChars(change.text);
    var removed := 0;
    if change.rangeLength > 0 {
      var deleted := Slice(Utf16(doc), change.rangeOffset, change.rangeOffset + change.rangeLength);
      removed := CodePointCounter.CountCharsOfUnits(deleted);
    }
    contribution := if added < removed then removed else added;
  }

  /** The `forEach` over `event.contentChanges` accumulating into `edited`. */
  method SumEdited(changes: seq<Change>, doc: string) returns (edited: nat)
    ensures edited == EditedSum(changes, doc)
  {
    edited := 0;
    var i := 0;
    while i < |changes|
      invariant 0 <= i <= |changes|
      invariant edited == EditedSum(changes[..i], doc)
    {
      var contribution := ChangeContribution(changes[i], doc);
      EditedSumStep(changes, i, doc);
      edited := edited + contribution;
      i := i + 1;
    }
    assert changes[..i] == changes;
  }

  /** Today's log after an edit: created with 0 if absent, then `editedCount += edited` and `charCount` set. */
  function LogEdit(history: seq<EditedDay>, today: string, edited: nat, count: nat): (r: seq<EditedDay>)
    ensures UniqueDates(history, EditedDate) ==> UniqueDates(r, EditedDate)
    ensures EditedNonNegative(history) ==> EditedNonNegative(r)
    ensures |history| <= |r| <= |history| + 1
    ensures forall j :: 0 <= j < |history| && history[j].date != today ==> r[j] == history[j]
    ensures FindDate(history, EditedDate, today).None? ==>
      r == history + [EditedDay(today, edited, count)] && FindDate(r, EditedDate, today) == Some(|history|)
    ensures FindDate(history, EditedDate, today).Some? ==>
      var i := FindDate(history, EditedDate, today).value;
      |r| == |history| && FindDate(r, EditedDate, today) == Some(i)
      && r[i].editedCount == history[i].editedCount + edited && r[i].charCount == count
  {
    match FindDate(history, EditedDate, today)
    case None =>
      var rec := EditedDay(today, edited, count);
      FindAfterAppend(history, EditedDate, rec);
      AppendKeepsUnique(history, EditedDate, rec);
      EditedAfterAppend(history, rec);
      history + [rec]
    case Some(i) =>
      var rec := history[i].(editedCount := history[i].editedCount + edited, charCount := count);
      FindAfterReplace(history, EditedDate, i, rec);
      ReplaceKeepsUnique(history, EditedDate, i, rec);
      EditedAfterReplace(history, i, rec);
      history[i := rec]
  }

  /** The file's total edit count grows by exactly `edited`. */
  lemma LogEditTotal(history: seq<EditedDay>, today: string, edited: nat, count: nat)
    ensures TotalEdited(LogEdit(history, today, edited, count)) == TotalEdited(history) + edited
  {
    match FindDate(history, EditedDate, today)
    case None =>
      var rec := EditedDay(today, edited, count);
      assert LogEdit(history, today, edited, count) == history + [rec];
      TotalEditedAppend(history, rec);
    case Some(i) =>
      var rec := history[i].(editedCount := history[i].editedCount + edited, charCount := count);
      assert LogEdit(history, today, edited, count) == history[i := rec];
      TotalEditedReplace(history, i, rec);
  }

  /** After today's activation an edit never adds a second record for today. */
  lemma EditAfterActivationKeepsOneRecord(history: seq<EditedDay>, today: string, first: nat, edited: nat, count: nat)
    ensures |LogEdit(ActivateToday(history, today, first), today, edited, count)| == |ActivateToday(history, today, first)|
  {
  }

  /** The `onDidChangeActiveTextEditor` handler. */
  method OnActiveEditorChanged(provider: EditLogProvider, editor: Option<Editor>, today: string)
    requires provider.store.Valid()
    modifies provider, provider.store
    ensures provider.store.Valid()
    ensures editor.None? || !editor.value.isFileScheme ==>
      provider.activeFile == old(provider.activeFile) && provider.store.stats == old(provider.store.stats)
    ensures editor.Some? && editor.value.isFileScheme ==>
      provider.activeFile == Some(editor.value.fsPath)
      && provider.store.stats == old(provider.store.stats)[editor.value.fsPath :=
        ActivateEntry(Lookup(old(provider.store.stats), editor.value.fsPath), today, CodePointCounter.CountChars(editor.value.text))]
  {
    if editor.Some? && editor.value.isFileScheme {
      var filePath := editor.value.fsPath;
      if filePath !in provider.store.stats {
        provider.store.stats := provider.store.stats[filePath := FileStats(CodePointCounter.CountChars(editor.value.text), [])];
      }
      provider.SetActiveFile(filePath, today, Some(editor.value.text));
    }
  }

  /** The `onDidChangeTextDocument` handler; `doc` is the document text after the change. */
  method OnDidChangeTextDocument(store: FileStatsStore, filePath: string, changes: seq<Change>, doc: string, today: string)
    requires store.Valid()
    modifies store
    ensures store.Valid()
    ensures filePath !in old(store.stats) ==> store.stats == old(store.stats)
    ensures filePath in old(store.stats) ==>
      store.stats == old(store.stats)[filePath := old(store.stats)[filePath].(history :=
        LogEdit(old(store.stats)[filePath].history, today, EditedSum(changes, doc), CodePointCounter.CountChars(doc)))]
  {
    if filePath !in store.stats {
      return;
    }
    var edited := SumEdited(changes, doc);
    var charCount := CodePointCounter.CountChars(doc);
    var entry := store.stats[filePath];
    var history := LogToday(entry.history, today, edited, charCount);
    store.stats := store.stats[filePath := entry.(history := history)];
  }

  /** The handler's update of one history, in the source's order: today's log is created with 0 if absent, then bumped; `LogEdit` is its specification. */
  method LogToday(history: seq<EditedDay>, today: string, edited: nat, charCount: nat) returns (r: seq<EditedDay>)
    ensures r == LogEdit(history, today, edited, charCount)
  {
    var todayLog := FindDate(history, EditedDate, today);
    if todayLog.None? {
      var log := EditedDay(today, 0, charCount);
      log := log.(editedCount := log.editedCount + edited, charCount := charCount);
      r := history + [log];
    } else {
      var i := todayLog.value;
      var log := history[i];
      log := log.(editedCount := log.editedCount + edited, charCount := charCount);
      r := history[i := log];
    }
  }
}

=== FILE: folder_scan.dfy ===
/**
 * `getFolderStats` of src/utils/countCharactersRecursive.ts over an abstract
 * directory tree: a depth-first walk that skips `.git` and `node_modules`,
 * leaves out files whose lower-cased extension is excluded, silently skips
 * unreadable files, and reports every other file with its path relative to the
 * root the scan started from and its `CharacterCounter.count`.
 *
 * Paths are sequences of path components; `root + rel` is a node's full path
 * and `rel` its `path.relative(currentRoot, uri.fsPath)`.
 */
module FolderScan {
  import opened Wrappers
  import CharacterCounter

  /** What `workspace.fs.stat` and `readDirectory`/`readFile` see at a path. */
  datatype Node =
    | Directory(entries: seq<Entry>)
      /** `content` is `None` when `readFile` throws. */
    | File(content: Option<string>)
      /** Any other `FileType` (unknown, or a symbolic link, whose type is not exactly `File`). */
    | Other

  /** One `[name, type]` pair of a directory listing, with the node it names. */
  datatype Entry = Entry(name: string, node: Node)

  /** One `FileStat`. */
  datatype FileStat = FileStat(filePath: seq<string>, relativePath: seq<string>, count: nat)

  /** `EXCLUDE_EXTENSIONS` (`.pdf` is listed twice; the set holds it once). */
  const ExcludeExtensions: set<string> :=
    {".png", ".jpg", ".jpeg", ".gif", ".bmp", ".ico", ".pdf", ".zip", ".exe", ".dll", ".bin"}

  /** The directory names the walk neither enters nor reports. */
  predicate IsIgnoredName(name: string) {
    name == ".git" || name == "node_modules"
  }

  /** The last path component, the one `path.extname` looks at. */
  function BaseName(path: seq<string>): string {
    if path == [] then "" else path[|path| - 1]
  }

  /** The index of the last `.` in `name`, if any. */
  function LastDot(name: string): (r: Option<nat>)
    ensures r.Some? ==> (r.value < |name| && name[r.value] == '.'
      && forall j :: r.value < j < |name| ==> name[j] != '.')
    ensures r.None? <==> forall j :: 0 <= j < |name| ==> name[j] != '.'
  {
    if name == [] then None
    else if name[|name| - 1] == '.' then Some(|name| - 1)
    else LastDot(name[..|name| - 1])
  }

  /**
   * POSIX `path.extname` of a file name: from the last dot to the end, except
   * that a name with no dot, a name whose only leading part is that dot
   * (`.gitignore`) and the name `..` have no extension.
   */
  function Extname(name: string): (ext: string)
    ensures ext == [] || (ext[0] == '.' && forall j :: 0 < j < |ext| ==> ext[j] != '.')
    ensures |ext| <= |name| && name[|name| - |ext|..] == ext
    ensures (forall j :: 0 <= j < |name| ==> name[j] != '.') ==> ext == []
    ensures ext != [] <==> (LastDot(name).Some? && LastDot(name).value > 0 && name != "..")
    ensures ext != [] ==> |ext| == |name| - LastDot(name).value
  {
    match LastDot(name)
    case None => ""
    case Some(d) => if d == 0 || name == ".." then "" else name[d..]
  }

  /** The dot at `d` with no dot after it is the last dot. */
  lemma {:induction false} LastDotAt(name: string, d: nat)
    requires d < |name| && name[d] == '.'
    requires forall j :: d < j < |name| ==> name[j] != '.'
    ensures LastDot(name) == Some(d)
    decreases |name|
  {
    if d < |name| - 1 {
      var init := name[..|name| - 1];
      assert init[d] == '.';
      LastDotAt(init, d);
    }
  }

  /** The extension runs from the last dot, and keeps its case. */
  lemma ExtnameExamples()
    ensures Extname("notes.MD") == ".MD"
    ensures Extname("archive.tar.gz") == ".gz"
    ensures Extname("name.") == "."
  {
    LastDotAt("notes.MD", 5);
    LastDotAt("archive.tar.gz", 11);
    LastDotAt("name.", 4);
  }

  /** A leading dot alone, and the name `..`, give no extension. */
  lemma NoExtnameExamples()
    ensures Extname(".gitignore") == ""
    ensures Extname("..") == ""
  {
    LastDotAt(".gitignore", 0);
    LastDotAt("..", 1);
  }

  /** `toLowerCase` on the ASCII letters (the only letters a listed extension holds). */
  function ToLowerAscii(s: string): (r: string)
    ensures |r| == |s|
    ensures forall k :: 0 <= k < |s| ==>
      r[k] == (if 'A' <= s[k] <= 'Z' then (s[k] as int + 32) as char else s[k])
    ensures forall k :: 0 <= k < |r| ==> !('A' <= r[k] <= 'Z')
  {
    seq(|s|, k requires 0 <= k < |s| => if 'A' <= s[k] <= 'Z' then (s[k] as int + 32) as char else s[k])
  }

  /** `EXCLUDE_EXTENSIONS.has(path.extname(fsPath).toLowerCase())`. */
  predicate IsExcluded(path: seq<string>): (b: bool)
    ensures b ==> path != [] && Extname(path[|path| - 1]) != ""
  {
    ToLowerAscii(Extname(BaseName(path))) in ExcludeExtensions
  }

  /** The extension test ignores case: `Scan.PDF` is excluded like `scan.pdf`. */
  lemma UpperCaseExtensionExcluded()
    ensures IsExcluded(["docs", "Scan.PDF"])
  {
    assert BaseName(["docs", "Scan.PDF"]) == "Scan.PDF";
    LastDotAt("Scan.PDF", 4);
    assert Extname("Scan.PDF") == ".PDF";
    LowerPdf();
    assert ".pdf" in ExcludeExtensions;
  }

  lemma LowerPdf()
    ensures ToLowerAscii(".PDF") == ".pdf"
  {
    var r := ToLowerAscii(".PDF");
    assert r[0] == '.' && r[1] == 'p' && r[2] == 'd' && r[3] == 'f';
  }

  /** A name whose only dot leads it has no extension: `.png` is not excluded. */
  lemma DotFileNotExcluded()
    ensures !IsExcluded(["icons", ".png"])
  {
    LastDotAt(".png", 0);
  }

  /** `getFolderStats(uri, root)` on the node at `root + rel`: never more results than file leaves. */
  function Scan(segmenter: CharacterCounter.Segmenter, node: Node, root: seq<string>, rel: seq<string>): (r: seq<FileStat>)
    ensures |r| <= FileCount(node)
    decreases node
  {
    match node
    case Directory(entries) => ScanEntries(segmenter, entries, root, rel)
    case File(content) =>
      if IsExcluded(root + rel) || content.None? then []
      else [FileStat(root + rel, rel, CharacterCounter.Count(segmenter, content.value))]
    case Other => []
  }

  /** The `for … of entries` loop: the children's results concatenated in listing order. */
  function ScanEntries(segmenter: CharacterCounter.Segmenter, entries: seq<Entry>, root: seq<string>, rel: seq<string>): (r: seq<FileStat>)
    ensures |r| <= EntriesFileCount(entries)
    decreases entries
  {
    if entries == [] then []
    else
      (if IsIgnoredName(entries[0].name) then [] else Scan(segmenter, entries[0].node, root, rel + [entries[0].name]))
      + ScanEntries(segmenter, entries[1..], root, rel)
  }

  /** The call from the command: `getFolderStats(uri)`, whose root is its own path. */
  function FolderStats(segmenter: CharacterCounter.Segmenter, node: Node, path: seq<string>): (r: seq<FileStat>)
    ensures |r| <= FileCount(node)
    ensures node.File? ==> (r == [] <==> IsExcluded(path) || node.content.None?)
  {
    assert path + [] == path;
    Scan(segmenter, node, path, [])
  }

  /** The number of file leaves of a tree, counting every directory entry. */
  function FileCount(node: Node): nat
    decreases node
  {
    match node
    case Directory(entries) => EntriesFileCount(entries)
    case File(_) => 1
    case Other => 0
  }

  function EntriesFileCount(entries: seq<Entry>): nat
    decreases entries
  {
    if entries == [] then 0 else FileCount(entries[0].node) + EntriesFileCount(entries[1..])
  }

  /**
   * `node` holds `leaf` at the relative component path `names`, through entries
   * that are neither `.git` nor `node_modules`.
   */
  predicate Reaches(node: Node, names: seq<string>, leaf: Node)
    decreases node
  {
    if names == [] then node == leaf
    else node.Directory? && EntriesReach(node.entries, names, leaf)
  }

  predicate EntriesReach(entries: seq<Entry>, names: seq<string>, leaf: Node)
    requires names != []
    decreases entries
  {
    entries != [] &&
    ((entries[0].name == names[0] && !IsIgnoredName(names[0]) && Reaches(entries[0].node, names[1..], leaf))
     || EntriesReach(entries[1..], names, leaf))
  }

  /**
   * Every result is a readable file found below `rel` through non-ignored
   * names: its relative path is `rel` followed by those names, and its count is
   * the count of that file's content.
   */
  lemma {:induction false} ScanSound(segmenter: CharacterCounter.Segmenter, node: Node, root: seq<string>, rel: seq<string>, s: FileStat)
    requires s in Scan(segmenter, node, root, rel)
    ensures exists names, content ::
              s.relativePath == rel + names && Reaches(node, names, File(Some(content)))
              && s.count == CharacterCounter.Count(segmenter, content)
    decreases node, 2
  {
    match node
    case Directory(entries) =>
      EntriesSound(segmenter, entries, root, rel, s);
    case File(content) =>
      assert s.relativePath == rel + [];
      assert Reaches(node, [], File(Some(content.value)));
  }

  lemma {:induction false} EntriesSound(segmenter: CharacterCounter.Segmenter, entries: seq<Entry>, root: seq<string>, rel: seq<string>, s: FileStat)
    requires s in ScanEntries(segmenter, entries, root, rel)
    ensures exists names, content ::
              names != [] && s.relativePath == rel + names && EntriesReach(entries, names, File(Some(content)))
              && s.count == CharacterCounter.Count(segmenter, content)
    decreases entries, 1
  {
    if !IsIgnoredName(entries[0].name) && s in Scan(segmenter, entries[0].node, root, rel + [entries[0].name]) {
      HeadSound(segmenter, entries, root, rel, s);
    } else {
      assert s in ScanEntries(segmenter, entries[1..], root, rel);
      EntriesSound(segmenter, entries[1..], root, rel, s);
      var names, content :| names != [] && s.relativePath == rel + names
        && EntriesReach(entries[1..], names, File(Some(content))) && s.count == CharacterCounter.Count(segmenter, content);
      assert EntriesReach(entries, names, File(Some(content)));
    }
  }

  /** A result of the first entry is found through that entry's name. */
  lemma {:induction false} HeadSound(segmenter: CharacterCounter.Segmenter, entries: seq<Entry>, root: seq<string>, rel: seq<string>, s: FileStat)
    requires entries != [] && !IsIgnoredName(entries[0].name)
    requires s in Scan(segmenter, entries[0].node, root, rel + [entries[0].name])
    ensures exists names, content ::
              names != [] && s.relativePath == rel + names && EntriesReach(entries, names, File(Some(content)))
              && s.count == CharacterCounter.Count(segmenter, content)
    decreases entries, 0
  {
    var name := entries[0].name;
    ScanSound(segmenter, entries[0].node, root, rel + [name], s);
    var names, content :| s.relativePath == rel + [name] + names
      && Reaches(entries[0].node, names, File(Some(content))) && s.count == CharacterCounter.Count(segmenter, content);
    HeadWitness(segmenter, entries, rel, s, names, content);
  }

  /** A file found below the first entry is found through the listing. */
  lemma HeadWitness(segmenter: CharacterCounter.Segmenter, entries: seq<Entry>, rel: seq<string>, s: FileStat, names: seq<string>, content: string)
    requires entries != [] && !IsIgnoredName(entries[0].name)
    requires s.relativePath == rel + [entries[0].name] + names && Reaches(entries[0].node, names, File(Some(content)))
    requires s.count == CharacterCounter.Count(segmenter, content)
    ensures exists names, content ::
              names != [] && s.relativePath == rel + names && EntriesReach(entries, names, File(Some(content)))
              && s.count == CharacterCounter.Count(segmenter, content)
  {
    var path := [entries[0].name] + names;
    assert path[0] == entries[0].name && path[1..] == names;
    HeadReaches(entries, path, File(Some(content)));
    assert s.relativePath == rel + path;
  }

  /** Every result has the full path `root + relativePath`, and that path is not excluded. */
  lemma {:induction false} ScanPathsSound(segmenter: CharacterCounter.Segmenter, node: Node, root: seq<string>, rel: seq<string>, s: FileStat)
    requires s in Scan(segmenter, node, root, rel)
    ensures s.filePath == root + s.relativePath && !IsExcluded(s.filePath)
    decreases node
  {
    if node.Directory? {
      EntriesPathsSound(segmenter, node.entries, root, rel, s);
    }
  }

  lemma {:induction false} EntriesPathsSound(segmenter: CharacterCounter.Segmenter, entries: seq<Entry>, root: seq<string>, rel: seq<string>, s: FileStat)
    requires s in ScanEntries(segmenter, entries, root, rel)
    ensures s.filePath == root + s.relativePath && !IsExcluded(s.filePath)
    decreases entries
  {
    var name := entries[0].name;
    if !IsIgnoredName(name) && s in Scan(segmenter, entries[0].node, root, rel + [name]) {
      ScanPathsSound(segmenter, entries[0].node, root, rel + [name], s);
    } else {
      EntriesPathsSound(segmenter, entries[1..], root, rel, s);
    }
  }

  /** A path that reaches something never passes through `.git` or `node_modules`. */
  lemma {:induction false} ReachesAvoidsIgnored(node: Node, names: seq<string>, leaf: Node)
    requires Reaches(node, names, leaf)
    ensures forall j :: 0 <= j < |names| ==> !IsIgnoredName(names[j])
    decreases node
  {
    if names != [] {
      EntriesReachAvoidsIgnored(node.entries, names, leaf);
    }
  }

  lemma {:induction false} EntriesReachAvoidsIgnored(entries: seq<Entry>, names: seq<string>, leaf: Node)
    requires names != [] && EntriesReach(entries, names, leaf)
    ensures forall j :: 0 <= j < |names| ==> !IsIgnoredName(names[j])
    decreases entries
  {
    if entries[0].name == names[0] && !IsIgnoredName(names[0]) && Reaches(entries[0].node, names[1..], leaf) {
      ReachesAvoidsIgnored(entries[0].node, names[1..], leaf);
      assert forall j :: 0 < j < |names| ==> names[j] == names[1..][j - 1];
    } else {
      EntriesReachAvoidsIgnored(entries[1..], names, leaf);
    }
  }

  /**
   * What the scan started from `path` reports: each result lies under `path`,
   * no component of its relative path is `.git` or `node_modules`, its
   * extension is not excluded, and it counts a readable file found there.
   */
  lemma FolderStatsSound(segmenter: CharacterCounter.Segmenter, node: Node, path: seq<string>, s: FileStat)
    requires s in FolderStats(segmenter, node, path)
    ensures s.filePath == path + s.relativePath && !IsExcluded(s.filePath)
    ensures forall j :: 0 <= j < |s.relativePath| ==> !IsIgnoredName(s.relativePath[j])
    ensures exists content ::
              Reaches(node, s.relativePath, File(Some(content))) && s.count == CharacterCounter.Count(segmenter, content)
  {
    ScanPathsSound(segmenter, node, path, [], s);
    ScanSound(segmenter, node, path, [], s);
    var names, content :| s.relativePath == [] + names && Reaches(node, names, File(Some(content)))
      && s.count == CharacterCounter.Count(segmenter, content);
    assert s.relativePath == names;
    ReachesAvoidsIgnored(node, names, File(Some(content)));
  }

  /** Reaching through the first entry of a listing. */
  lemma HeadReaches(entries: seq<Entry>, names: seq<string>, leaf: Node)
    requires entries != [] && names != [] && entries[0].name == names[0] && !IsIgnoredName(names[0])
    requires Reaches(entries[0].node, names[1..], leaf)
    ensures EntriesReach(entries, names, leaf)
  {
  }

  /**
   * Every readable, non-excluded file reachable through non-ignored names is
   * reported, with its path relative to the root and its count.
   */
  lemma {:induction false} ScanComplete(segmenter: CharacterCounter.Segmenter, node: Node, root: seq<string>, rel: seq<string>, names: seq<string>, content: string, path: seq<string>)
    requires Reaches(node, names, File(Some(content)))
    requires path == root + rel + names && !IsExcluded(path)
    ensures FileStat(path, rel + names, CharacterCounter.Count(segmenter, content)) in Scan(segmenter, node, root, rel)
    decreases node, 2
  {
    if names == [] {
      assert rel + names == rel && path == root + rel;
    } else {
      EntriesComplete(segmenter, node.entries, root, rel, names, content, path);
    }
  }

  lemma {:induction false} EntriesComplete(segmenter: CharacterCounter.Segmenter, entries: seq<Entry>, root: seq<string>, rel: seq<string>, names: seq<string>, content: string, path: seq<string>)
    requires names != []
    requires EntriesReach(entries, names, File(Some(content)))
    requires path == root + rel + names && !IsExcluded(path)
    ensures FileStat(path, rel + names, CharacterCounter.Count(segmenter, content)) in ScanEntries(segmenter, entries, root, rel)
    decreases entries, 1
  {
    if entries[0].name == names[0] && !IsIgnoredName(names[0]) && Reaches(entries[0].node, names[1..], File(Some(content))) {
      HeadComplete(segmenter, entries, root, rel, names, content, path);
    } else {
      EntriesComplete(segmenter, entries[1..], root, rel, names, content, path);
      InLaterEntries(segmenter, entries, root, rel, FileStat(path, rel + names, CharacterCounter.Count(segmenter, content)));
    }
  }

  /** The file is reached through the first entry. */
  lemma {:induction false} HeadComplete(segmenter: CharacterCounter.Segmenter, entries: seq<Entry>, root: seq<string>, rel: seq<string>, names: seq<string>, content: string, path: seq<string>)
    requires entries != [] && names != []
    requires entries[0].name == names[0] && !IsIgnoredName(names[0]) && Reaches(entries[0].node, names[1..], File(Some(content)))
    requires path == root + rel + names && !IsExcluded(path)
    ensures FileStat(path, rel + names, CharacterCounter.Count(segmenter, content)) in ScanEntries(segmenter, entries, root, rel)
    decreases entries, 0
  {
    var rel' := rel + [entries[0].name];
    PathThroughHead(root, rel, names);
    ScanComplete(segmenter, entries[0].node, root, rel', names[1..], content, path);
    InFirstEntry(segmenter, entries, root, rel, FileStat(path, rel + names, CharacterCounter.Count(segmenter, content)));
  }

  /** Descending by the first name keeps both the full path and the relative one. */
  lemma PathThroughHead(root: seq<string>, rel: seq<string>, names: seq<string>)
    requires names != []
    ensures (rel + [names[0]]) + names[1..] == rel + names
    ensures root + (rel + [names[0]]) + names[1..] == root + rel + names
  {
    assert names == [names[0]] + names[1..];
  }

  /** A result of a non-ignored first entry is a result of the whole listing. */
  lemma InFirstEntry(segmenter: CharacterCounter.Segmenter, entries: seq<Entry>, root: seq<string>, rel: seq<string>, s: FileStat)
    requires entries != [] && !IsIgnoredName(entries[0].name)
    requires s in Scan(segmenter, entries[0].node, root, rel + [entries[0].name])
    ensures s in ScanEntries(segmenter, entries, root, rel)
  {
  }

  /** A result of the later entries is a result of the whole listing. */
  lemma InLaterEntries(segmenter: CharacterCounter.Segmenter, entries: seq<Entry>, root: seq<string>, rel: seq<string>, s: FileStat)
    requires entries != [] && s in ScanEntries(segmenter, entries[1..], root, rel)
    ensures s in ScanEntries(segmenter, entries, root, rel)
  {
  }

  /** A real directory lists each name once, at every depth. */
  predicate UniqueNames(node: Node)
    decreases node
  {
    match node
    case Directory(entries) => EntriesUnique(entries)
    case File(_) => true
    case Other => true
  }

  predicate EntriesUnique(entries: seq<Entry>)
    decreases entries
  {
    entries == [] ||
    ((forall j :: 1 <= j < |entries| ==> entries[j].name != entries[0].name)
     && UniqueNames(entries[0].node) && EntriesUnique(entries[1..]))
  }

  /** No two results share a relative path. */
  predicate DistinctPaths(r: seq<FileStat>) {
    forall i, j :: 0 <= i < j < |r| ==> r[i].relativePath != r[j].relativePath
  }

  /** A path reached through a listing starts with the name of one of its entries. */
  lemma {:induction false} ReachedNameListed(entries: seq<Entry>, names: seq<string>, leaf: Node)
    requires names != [] && EntriesReach(entries, names, leaf)
    ensures exists j :: 0 <= j < |entries| && entries[j].name == names[0]
    decreases entries
  {
    if !(entries[0].name == names[0] && !IsIgnoredName(names[0]) && Reaches(entries[0].node, names[1..], leaf)) {
      ReachedNameListed(entries[1..], names, leaf);
      var j :| 0 <= j < |entries[1..]| && entries[1..][j].name == names[0];
      assert entries[j + 1].name == names[0];
    }
  }

  /** Results of a non-ignored first entry lie below that entry's name. */
  lemma HeadResultBelow(segmenter: CharacterCounter.Segmenter, entries: seq<Entry>, root: seq<string>, rel: seq<string>, s: FileStat)
    requires entries != [] && s in Scan(segmenter, entries[0].node, root, rel + [entries[0].name])
    ensures |rel| < |s.relativePath| && s.relativePath[|rel|] == entries[0].name
  {
    ScanSound(segmenter, entries[0].node, root, rel + [entries[0].name], s);
    var names, content :| s.relativePath == rel + [entries[0].name] + names
      && Reaches(entries[0].node, names, File(Some(content))) && s.count == CharacterCounter.Count(segmenter, content);
    assert s.relativePath[|rel|] == (rel + [entries[0].name] + names)[|rel|];
  }

  /** Results of the later entries lie below the name of one of them. */
  lemma TailResultBelow(segmenter: CharacterCounter.Segmenter, entries: seq<Entry>, root: seq<string>, rel: seq<string>, s: FileStat)
    requires entries != [] && s in ScanEntries(segmenter, entries[1..], root, rel)
    ensures |rel| < |s.relativePath|
    ensures exists j :: 1 <= j < |entries| && entries[j].name == s.relativePath[|rel|]
  {
    EntriesSound(segmenter, entries[1..], root, rel, s);
    var names, content :| names != [] && s.relativePath == rel + names
      && EntriesReach(entries[1..], names, File(Some(content))) && s.count == CharacterCounter.Count(segmenter, content);
    ReachedNameListed(entries[1..], names, File(Some(content)));
    var j :| 0 <= j < |entries[1..]| && entries[1..][j].name == names[0];
    assert entries[j + 1].name == s.relativePath[|rel|];
  }

  /** Concatenating two lists with disjoint paths keeps paths distinct. */
  lemma DistinctAppend(a: seq<FileStat>, b: seq<FileStat>)
    requires DistinctPaths(a) && DistinctPaths(b)
    requires forall x, y :: x in a && y in b ==> x.relativePath != y.relativePath
    ensures DistinctPaths(a + b)
  {
    forall i, j | 0 <= i < j < |a + b|
      ensures (a + b)[i].relativePath != (a + b)[j].relativePath
    {
      if j < |a| {
        assert (a + b)[i] == a[i] && (a + b)[j] == a[j];
      } else if i >= |a| {
        assert (a + b)[i] == b[i - |a|] && (a + b)[j] == b[j - |a|];
      } else {
        assert (a + b)[i] in a && (a + b)[j] in b;
      }
    }
  }

  /** In a tree whose listings repeat no name, no two results share a relative path. */
  lemma {:induction false} ScanDistinct(segmenter: CharacterCounter.Segmenter, node: Node, root: seq<string>, rel: seq<string>)
    requires UniqueNames(node)
    ensures DistinctPaths(Scan(segmenter, node, root, rel))
    decreases node, 1
  {
    if node.Directory? {
      EntriesDistinct(segmenter, node.entries, root, rel);
    }
  }

  lemma {:induction false} EntriesDistinct(segmenter: CharacterCounter.Segmenter, entries: seq<Entry>, root: seq<string>, rel: seq<string>)
    requires EntriesUnique(entries)
    ensures DistinctPaths(ScanEntries(segmenter, entries, root, rel))
    decreases entries, 0
  {
    if entries != [] {
      var head := if IsIgnoredName(entries[0].name) then [] else Scan(segmenter, entries[0].node, root, rel + [entries[0].name]);
      var tail := ScanEntries(segmenter, entries[1..], root, rel);
      if !IsIgnoredName(entries[0].name) {
        ScanDistinct(segmenter, entries[0].node, root, rel + [entries[0].name]);
      }
      EntriesDistinct(segmenter, entries[1..], root, rel);
      forall x, y | x in head && y in tail
        ensures x.relativePath != y.relativePath
      {
        HeadResultBelow(segmenter, entries, root, rel, x);
        TailResultBelow(segmenter, entries, root, rel, y);
      }
      DistinctAppend(head, tail);
    }
  }

  /** A list with distinct paths holds each of its elements once. */
  lemma {:induction false} DistinctOnce(r: seq<FileStat>, s: FileStat)
    requires DistinctPaths(r) && s in r
    ensures multiset(r)[s] == 1
  {
    if r[0] == s {
      assert s !in r[1..] by {
        forall k | 0 <= k < |r[1..]|
          ensures r[1..][k] != s
        {
          assert r[1..][k] == r[k + 1];
        }
      }
    } else {
      assert DistinctPaths(r[1..]) by {
        forall i, j | 0 <= i < j < |r[1..]|
          ensures r[1..][i].relativePath != r[1..][j].relativePath
        {
          assert r[1..][i] == r[i + 1] && r[1..][j] == r[j + 1];
        }
      }
      DistinctOnce(r[1..], s);
    }
    assert r == [r[0]] + r[1..];
  }

  /**
   * In a tree whose listings repeat no name (as a real file system's do), every
   * readable, non-excluded file reached through non-ignored names is reported
   * exactly once.
   */
  lemma ScanReportsOnce(segmenter: CharacterCounter.Segmenter, node: Node, root: seq<string>, rel: seq<string>, names: seq<string>, content: string, path: seq<string>)
    requires UniqueNames(node)
    requires Reaches(node, names, File(Some(content)))
    requires path == root + rel + names && !IsExcluded(path)
    ensures multiset(Scan(segmenter, node, root, rel))[FileStat(path, rel + names, CharacterCounter.Count(segmenter, content))] == 1
  {
    ScanComplete(segmenter, node, root, rel, names, content, path);
    ScanDistinct(segmenter, node, root, rel);
    DistinctOnce(Scan(segmenter, node, root, rel), FileStat(path, rel + names, CharacterCounter.Count(segmenter, content)));
  }

  /**
   * A directory's results are its first entries' results followed by the rest's:
   * depth-first, in listing order, and an entry that yields nothing (an
   * unreadable file, say) does not disturb its siblings.
   */
  lemma {:induction false} ScanEntriesAppend(segmenter: CharacterCounter.Segmenter, a: seq<Entry>, b: seq<Entry>, root: seq<string>, rel: seq<string>)
    ensures ScanEntries(segmenter, a + b, root, rel) == ScanEntries(segmenter, a, root, rel) + ScanEntries(segmenter, b, root, rel)
    decreases a
  {
    if a == [] {
      assert a + b == b;
    } else {
      assert (a + b)[0] == a[0] && (a + b)[1..] == a[1..] + b;
      ScanEntriesAppend(segmenter, a[1..], b, root, rel);
    }
  }

  /** An unreadable file among the entries is skipped without affecting the others. */
  lemma UnreadableFileSkipped(segmenter: CharacterCounter.Segmenter, a: seq<Entry>, name: string, b: seq<Entry>, root: seq<string>, rel: seq<string>)
    ensures ScanEntries(segmenter, a + [Entry(name, File(None))] + b, root, rel)
         == ScanEntries(segmenter, a, root, rel) + ScanEntries(segmenter, b, root, rel)
  {
    var x := [Entry(name, File(None))];
    var sa := ScanEntries(segmenter, a, root, rel);
    UnreadableEntryYieldsNothing(segmenter, name, root, rel);
    ScanEntriesAppend(segmenter, a, x, root, rel);
    assert sa + [] == sa;
    assert ScanEntries(segmenter, a + x, root, rel) == sa;
    ScanEntriesAppend(segmenter, a + x, b, root, rel);
  }

  lemma UnreadableEntryYieldsNothing(segmenter: CharacterCounter.Segmenter, name: string, root: seq<string>, rel: seq<string>)
    ensures ScanEntries(segmenter, [Entry(name, File(None))], root, rel) == []
  {
    var x := [Entry(name, File(None))];
    assert x[0] == Entry(name, File(None)) && x[1..] == [];
    assert Scan(segmenter, File(None), root, rel + [name]) == [];
  }

  /** The listing from entry `k` on: entry `k`'s results, then the rest's. */
  lemma ScanEntriesFrom(segmenter: CharacterCounter.Segmenter, entries: seq<Entry>, k: nat, root: seq<string>, rel: seq<string>)
    requires k < |entries|
    ensures ScanEntries(segmenter, entries[k..], root, rel) ==
      (if IsIgnoredName(entries[k].name) then [] else Scan(segmenter, entries[k].node, root, rel + [entries[k].name]))
      + ScanEntries(segmenter, entries[k + 1..], root, rel)
  {
    assert entries[k..][1..] == entries[k + 1..];
    assert entries[k..][0] == entries[k];
  }

  /** The walk itself: a recursive method whose directory case loops over the listing. */
  method GetFolderStats(segmenter: CharacterCounter.Segmenter, node: Node, root: seq<string>, rel: seq<string>)
    returns (results: seq<FileStat>)
    ensures results == Scan(segmenter, node, root, rel)
    decreases node, 1
  {
    results := [];
    match node {
      case Directory(_) =>
        results := ScanDirectory(segmenter, node, root, rel);
      case File(content) =>
        results := ReadFileStat(segmenter, content, root, rel);
      case Other =>
    }
  }

  /** The directory branch: the `for … of` loop over the entries, skipping ignored names. */
  method ScanDirectory(segmenter: CharacterCounter.Segmenter, node: Node, root: seq<string>, rel: seq<string>)
    returns (results: seq<FileStat>)
    requires node.Directory?
    ensures results == ScanEntries(segmenter, node.entries, root, rel)
    decreases node, 0
  {
    var entries := node.entries;
    results := [];
    var k := 0;
    while k < |entries|
      invariant 0 <= k <= |entries|
      invariant results + ScanEntries(segmenter, entries[k..], root, rel) == ScanEntries(segmenter, entries, root, rel)
    {
      var entry := entries[k];
      var child := [];
      if !IsIgnoredName(entry.name) {
        assert entry in entries;
        child := GetFolderStats(segmenter, entry.node, root, rel + [entry.name]);
      }
      ScanDirectoryStep(segmenter, entries, k, root, rel, results, child);
      results := results + child;
      k := k + 1;
    }
  }

  /** One turn of the directory loop keeps its invariant. */
  lemma ScanDirectoryStep(segmenter: CharacterCounter.Segmenter, entries: seq<Entry>, k: nat, root: seq<string>, rel: seq<string>,
                          results: seq<FileStat>, child: seq<FileStat>)
    requires k < |entries|
    requires results + ScanEntries(segmenter, entries[k..], root, rel) == ScanEntries(segmenter, entries, root, rel)
    requires child == (if IsIgnoredName(entries[k].name) then [] else Scan(segmenter, entries[k].node, root, rel + [entries[k].name]))
    ensures (results + child) + ScanEntries(segmenter, entries[k + 1..], root, rel) == ScanEntries(segmenter, entries, root, rel)
  {
    ScanEntriesFrom(segmenter, entries, k, root, rel);
    ConcatAssociates(results, child, ScanEntries(segmenter, entries[k + 1..], root, rel));
  }

  lemma ConcatAssociates(a: seq<FileStat>, b: seq<FileStat>, c: seq<FileStat>)
    ensures (a + b) + c == a + (b + c)
  {
  }

  /** The file branch: skip an excluded extension, ignore an unreadable file, else report its count. */
  method ReadFileStat(segmenter: CharacterCounter.Segmenter, content: Option<string>, root: seq<string>, rel: seq<string>)
    returns (results: seq<FileStat>)
    ensures results == Scan(segmenter, File(content), root, rel)
  {
    results := [];
    if !IsExcluded(root + rel) {
      if content.Some? {
        var count := CharacterCounter.Count(segmenter, content.value);
        results := results + [FileStat(root + rel, rel, count)];
      }
    }
  }
}

=== FILE: history_csv.dfy ===
/**
 * The CSV export and import of src/utils/historyManager.ts. Export writes a
 * `SourceFile:` line naming the file, a header line and one row per day;
 * import splits the content into lines, drops blank ones, reads the source
 * path from the first line and one day record from every line after the
 * second.
 */
module HistoryCsv {
  import opened Wrappers
  import opened JsText
  import opened JsString
  import opened Days

  /** What `importFromCSV` resolves to when the content parses. */
  datatype ImportResult = ImportResult(sourcePath: string, entries: seq<DayRecord>)

  const MetaPrefix: string := "SourceFile:"
  const Header: string := "Date,Removed,Added,Total"

  /** `s.startsWith(prefix)`. */
  predicate StartsWith(s: string, prefix: string) {
    |prefix| <= |s| && s[..|prefix|] == prefix
  }

  /** One data row: date, removed, added, total, in that order. */
  function FormatRow(h: DayRecord): (row: string)
    ensures |h.date| < |row| && row[..|h.date|] == h.date && row[|h.date|] == ','
    ensures IsDecimalDigit(row[|row| - 1])
  {
    h.date + "," + IntToString(h.removedCount) + "," + IntToString(h.addedCount) + "," + IntToString(h.charCount)
  }

  /** `history.map(...)`, one row per day record. */
  function Rows(history: seq<DayRecord>): (rows: seq<string>)
    ensures |rows| == |history|
    ensures forall i :: 0 <= i < |history| ==> rows[i] == FormatRow(history[i])
  {
    seq(|history|, i requires 0 <= i < |history| => FormatRow(history[i]))
  }

  /**
   * The content `exportToCSV` writes, or `None` when there is nothing to
   * export (the warning case). The save dialog is not modelled.
   */
  function Export(path: string, history: seq<DayRecord>): (r: Option<string>)
    ensures r.None? <==> history == []
  {
    if history == [] then None
    else
      var metadata := MetaPrefix + path + "\n";
      var header := Header + "\n";
      Some(metadata + header + Join(Rows(history), '\n'))
  }

  /** The line a `\r?\n` separator ends: one carriage return before the newline is part of the separator. */
  function DropCr(line: string): (r: string)
    ensures r == line || (line == r + "\r")
  {
    if line != [] && line[|line| - 1] == '\r' then line[..|line| - 1] else line
  }

  /** `content.split(/\r?\n/)`: split at every newline, dropping a carriage return before each one. */
  function SplitLines(content: string): (lines: seq<string>)
    ensures var pieces := Split(content, '\n');
      |lines| == |pieces|
      && (forall i :: 0 <= i < |pieces| - 1 ==> lines[i] == DropCr(pieces[i]))
      && lines[|lines| - 1] == pieces[|pieces| - 1]
  {
    var pieces := Split(content, '\n');
    seq(|pieces|, i requires 0 <= i < |pieces| => if i < |pieces| - 1 then DropCr(pieces[i]) else pieces[i])
  }

  /** `line.trim() !== ''`. */
  predicate IsNonBlank(line: string) {
    Trim(line) != ""
  }

  /** `lines.filter(line => line.trim() !== '')`, order kept. */
  function NonBlank(lines: seq<string>): (r: seq<string>)
    ensures |r| <= |lines|
  {
    if lines == [] then []
    else
      var rest := NonBlank(lines[1..]);
      if IsNonBlank(lines[0]) then [lines[0]] + rest else rest
  }

  /** Filtering distributes over concatenation: order and multiplicity are kept. */
  lemma {:induction false} NonBlankAppend(a: seq<string>, b: seq<string>)
    ensures NonBlank(a + b) == NonBlank(a) + NonBlank(b)
    decreases a
  {
    if a == [] {
      assert a + b == b;
    } else {
      assert (a + b)[0] == a[0] && (a + b)[1..] == a[1..] + b;
      NonBlankAppend(a[1..], b);
    }
  }

  /** A single line is kept exactly when it is non-blank. */
  lemma NonBlankSingle(x: string)
    ensures NonBlank([x]) == (if IsNonBlank(x) then [x] else [])
  {
    assert [x][1..] == [];
  }

  /** The filter keeps only non-blank lines of its input. */
  lemma {:induction false} NonBlankSound(lines: seq<string>)
    ensures forall x :: x in NonBlank(lines) ==> x in lines && IsNonBlank(x)
  {
    if lines != [] {
      NonBlankSound(lines[1..]);
    }
  }

  /** The filter keeps every non-blank line. */
  lemma {:induction false} NonBlankComplete(lines: seq<string>)
    ensures forall i :: 0 <= i < |lines| && IsNonBlank(lines[i]) ==> lines[i] in NonBlank(lines)
  {
    if lines != [] {
      NonBlankComplete(lines[1..]);
      forall i | 0 < i < |lines| && IsNonBlank(lines[i])
        ensures lines[i] in NonBlank(lines)
      {
        assert lines[i] == lines[1..][i - 1];
      }
    }
  }

  /** Field `i` of a split row as `parseInt(field) || 0`; a missing field is `undefined`, hence 0. */
  function ParseField(fields: seq<string>, i: nat): int {
    if i < |fields| then ParseIntOrZero(fields[i]) else 0
  }

  /** One data line: `[date, removed, added, total] = line.split(',')`, the date kept as it is. */
  function ParseRow(line: string): (r: DayRecord)
    ensures r.date == Split(line, ',')[0] && Lacks(r.date, ',')
  {
    var fields := Split(line, ',');
    DayRecord(fields[0], ParseField(fields, 2), ParseField(fields, 1), ParseField(fields, 3))
  }

  /** The first line's path after `SourceFile:`, trimmed, or `''` without that prefix. */
  function SourcePathOf(line: string): (path: string)
    ensures Trimmed(path)
    ensures !StartsWith(line, MetaPrefix) ==> path == ""
  {
    if StartsWith(line, MetaPrefix) then Trim(line[|MetaPrefix|..]) else ""
  }

  /**
   * `importFromCSV` on file content already decoded: `None` (the `Invalid
   * format` error, caught) when fewer than three non-blank lines remain, else
   * what `ImportLines` reads from them.
   */
  function Import(content: string): (r: Option<ImportResult>)
    ensures r.None? <==> |NonBlank(SplitLines(content))| < 3
    ensures r.Some? ==> |r.value.entries| + 2 <= |SplitLines(content)|
  {
    ImportLines(NonBlank(SplitLines(content)))
  }

  /** The non-blank lines read as the source path of the first and one entry per line after the header. */
  function ImportLines(lines: seq<string>): (r: Option<ImportResult>)
    ensures r.None? <==> |lines| < 3
    ensures r.Some? ==>
      r.value.sourcePath == SourcePathOf(lines[0]) && |r.value.entries| == |lines| - 2
      && forall i :: 0 <= i < |r.value.entries| ==> r.value.entries[i] == ParseRow(lines[i + 2])
  {
    if |lines| < 3 then None
    else
      var data := lines[2..];
      Some(ImportResult(SourcePathOf(lines[0]), seq(|data|, i requires 0 <= i < |data| => ParseRow(data[i]))))
  }

  /** Exported content is the metadata line, the header and the rows, joined by newlines. */
  lemma ExportShape(path: string, history: seq<DayRecord>)
    requires history != []
    ensures Export(path, history) == Some(Join([MetaPrefix + path, Header] + Rows(history), '\n'))
  {
    var rows := Rows(history);
    var meta := MetaPrefix + path;
    JoinCons(Header, rows, '\n');
    JoinCons(meta, [Header] + rows, '\n');
    assert [meta] + ([Header] + rows) == [meta, Header] + rows;
    Regroup(meta, "\n", Header, Join(rows, '\n'));
  }

  lemma Regroup(a: string, nl: string, b: string, c: string)
    ensures a + nl + (b + nl) + c == a + nl + (b + nl + c)
  {
  }

  /** A first line without the `SourceFile:` prefix imports with an empty source path. */
  lemma ImportWithoutPrefix(content: string)
    requires var lines := NonBlank(SplitLines(content)); |lines| >= 3 && !StartsWith(lines[0], MetaPrefix)
    ensures Import(content).Some? && Import(content).value.sourcePath == ""
  {
  }

  /** A line without commas is a date with every count 0. */
  lemma ParseRowWithoutCommas(line: string)
    requires Lacks(line, ',')
    ensures ParseRow(line) == DayRecord(line, 0, 0, 0)
  {
    SplitLacking(line, ',');
  }

  /** Fields after the fourth are ignored. */
  lemma ParseRowIgnoresExtraFields(line: string, extra: string)
    requires |Split(line, ',')| >= 4
    ensures ParseRow(line + "," + extra) == ParseRow(line)
  {
    var f := Split(line, ',');
    var g := Split(line + [','] + extra, ',');
    SplitAtSeparator(line, ',', extra);
    assert g[..4] == f[..4];
    assert g[0] == f[0] && g[1] == f[1] && g[2] == f[2] && g[3] == f[3];
    assert line + "," + extra == line + [','] + extra;
  }

  /** The three counts of a record are written as plain decimal digits. */
  predicate CountsPrintPlain(h: DayRecord) {
    PrintsPlain(h.removedCount) && PrintsPlain(h.addedCount) && PrintsPlain(h.charCount)
  }

  /** A row reads back as the record it was written from. */
  lemma ParseFormatRow(h: DayRecord)
    requires Lacks(h.date, ',') && CountsPrintPlain(h)
    ensures ParseRow(FormatRow(h)) == h
  {
    var a, b, c := IntToString(h.removedCount), IntToString(h.addedCount), IntToString(h.charCount);
    SplitFourFields(h.date, a, b, c);
    ParseIntOfIntToString(h.removedCount);
    ParseIntOfIntToString(h.addedCount);
    ParseIntOfIntToString(h.charCount);
  }

  /** Four comma-free fields joined by commas split back into those four. */
  lemma SplitFourFields(d: string, a: string, b: string, c: string)
    requires Lacks(d, ',') && Lacks(a, ',') && Lacks(b, ',') && Lacks(c, ',')
    ensures Split(d + "," + a + "," + b + "," + c, ',') == [d, a, b, c]
  {
    var s3 := b + [','] + c;
    var s2 := a + [','] + s3;
    SplitAfterPiece(b, ',', c);
    SplitLacking(c, ',');
    SplitAfterPiece(a, ',', s3);
    SplitAfterPiece(d, ',', s2);
    FieldsAssociate(d, a, b, c);
  }

  lemma FieldsAssociate(d: string, a: string, b: string, c: string)
    ensures d + "," + a + "," + b + "," + c == d + [','] + (a + [','] + (b + [','] + c))
  {
  }

  /** A row ends with a digit and holds no newline. */
  lemma FormatRowShape(h: DayRecord)
    requires Lacks(h.date, '\n')
    ensures var row := FormatRow(h);
      row != [] && IsDecimalDigit(row[|row| - 1]) && Lacks(row, '\n')
  {
    var c := IntToString(h.charCount);
    var row := FormatRow(h);
    assert row[|row| - 1] == c[|c| - 1];
    forall k | 0 <= k < |row|
      ensures row[k] != '\n'
    {
      var a, b := IntToString(h.removedCount), IntToString(h.addedCount);
      assert row == h.date + [','] + a + [','] + b + [','] + c;
      if k < |h.date| {
        assert row[k] == h.date[k];
      } else if k == |h.date| {
      } else if k < |h.date| + 1 + |a| {
        assert row[k] == a[k - |h.date| - 1];
      } else if k == |h.date| + 1 + |a| {
      } else if k < |h.date| + 2 + |a| + |b| {
        assert row[k] == b[k - |h.date| - 2 - |a|];
      } else if k == |h.date| + 2 + |a| + |b| {
      } else {
        assert row[k] == c[k - |h.date| - 3 - |a| - |b|];
      }
    }
  }

  /** A line that survives splitting and filtering unchanged: no newline, and a non-space last character. */
  predicate CleanLine(p: string) {
    Lacks(p, '\n') && p != [] && !IsRegexSpace(p[|p| - 1] as int)
  }

  /** Lines joined by newlines split back into themselves when none ends with a carriage return. */
  lemma LinesOfJoin(parts: seq<string>)
    requires parts != [] && forall i :: 0 <= i < |parts| ==> CleanLine(parts[i])
    ensures SplitLines(Join(parts, '\n')) == parts
  {
    var content := Join(parts, '\n');
    forall i | 0 <= i < |parts|
      ensures Lacks(parts[i], '\n')
    {
    }
    SplitJoin(parts, '\n');
    var lines := SplitLines(content);
    assert |lines| == |parts|;
    forall i | 0 <= i < |parts| - 1
      ensures lines[i] == parts[i]
    {
      assert lines[i] == DropCr(parts[i]);
      CleanLineKeepsCr(parts[i]);
    }
    assert lines[|lines| - 1] == parts[|parts| - 1];
  }

  /** A clean line loses no carriage return. */
  lemma CleanLineKeepsCr(p: string)
    requires CleanLine(p)
    ensures DropCr(p) == p
  {
    assert p[|p| - 1] != '\r' by {
      assert IsRegexSpace('\r' as int);
    }
  }

  /** Clean lines are non-blank, so filtering them keeps them all. */
  lemma NonBlankOfClean(lines: seq<string>)
    requires forall i :: 0 <= i < |lines| ==> CleanLine(lines[i])
    ensures NonBlank(lines) == lines
  {
    forall i | 0 <= i < |lines|
      ensures IsNonBlank(lines[i])
    {
      CleanIsNonBlank(lines[i]);
    }
    NonBlankKeepsAll(lines);
  }

  /** A clean line ends in a non-space character, so `trim` leaves it non-empty. */
  lemma CleanIsNonBlank(p: string)
    requires CleanLine(p)
    ensures IsNonBlank(p)
  {
    NotBlank(p, |p| - 1);
  }

  /** Filtering lines that are all non-blank keeps them all. */
  lemma {:induction false} NonBlankKeepsAll(lines: seq<string>)
    requires forall i :: 0 <= i < |lines| ==> IsNonBlank(lines[i])
    ensures NonBlank(lines) == lines
  {
    if lines != [] {
      assert IsNonBlank(lines[0]);
      NonBlankKeepsAll(lines[1..]);
      assert [lines[0]] + lines[1..] == lines;
    }
  }

  /** Every line of an export is clean, under the round-trip conditions. */
  lemma ExportLinesClean(path: string, history: seq<DayRecord>)
    requires Lacks(path, '\n') && Trimmed(path)
    requires forall i :: 0 <= i < |history| ==> Lacks(history[i].date, '\n')
    ensures var parts := [MetaPrefix + path, Header] + Rows(history);
      forall i :: 0 <= i < |parts| ==> CleanLine(parts[i])
  {
    MetaLine(path);
    HeaderLine();
    RowsClean(history);
    CleanInFront(MetaPrefix + path, Header, Rows(history));
  }

  /** Every data row is clean when no date holds a newline. */
  lemma RowsClean(history: seq<DayRecord>)
    requires forall i :: 0 <= i < |history| ==> Lacks(history[i].date, '\n')
    ensures forall i :: 0 <= i < |Rows(history)| ==> CleanLine(Rows(history)[i])
  {
    var rows := Rows(history);
    forall i | 0 <= i < |rows|
      ensures CleanLine(rows[i])
    {
      RowClean(history[i]);
    }
  }

  /** Two clean lines in front of clean lines. */
  lemma CleanInFront(a: string, b: string, rest: seq<string>)
    requires CleanLine(a) && CleanLine(b)
    requires forall i :: 0 <= i < |rest| ==> CleanLine(rest[i])
    ensures var parts := [a, b] + rest;
      forall i :: 0 <= i < |parts| ==> CleanLine(parts[i])
  {
    var parts := [a, b] + rest;
    forall i | 0 <= i < |parts|
      ensures CleanLine(parts[i])
    {
      if i >= 2 {
        assert parts[i] == rest[i - 2];
      }
    }
  }

  /** A data row is clean when its date holds no newline. */
  lemma RowClean(h: DayRecord)
    requires Lacks(h.date, '\n')
    ensures CleanLine(FormatRow(h))
  {
    FormatRowShape(h);
    var row := FormatRow(h);
    DigitIsNotSpace(row[|row| - 1]);
  }

  lemma DigitIsNotSpace(c: char)
    requires IsDecimalDigit(c)
    ensures !IsRegexSpace(c as int)
  {
  }

  /** The header line is clean. */
  lemma HeaderLine()
    ensures CleanLine(Header)
  {
    assert Header[|Header| - 1] == 'l';
  }

  /** The import of the exported lines reads the path back from the metadata line. */
  lemma SourcePathOfMeta(path: string)
    requires Trimmed(path)
    ensures SourcePathOf(MetaPrefix + path) == path
  {
    var meta := MetaPrefix + path;
    assert meta[..|MetaPrefix|] == MetaPrefix && meta[|MetaPrefix|..] == path;
    TrimIdentity(path);
  }

  /**
   * Importing an export gives back the path and the history, when the path has
   * no newline and no surrounding whitespace, no date holds a comma or a
   * newline, and every count is below 10^21 in magnitude (larger counts are
   * written in exponent form and read back as their leading digit).
   */
  lemma ExportImportRoundTrip(path: string, history: seq<DayRecord>)
    requires history != []
    requires Lacks(path, '\n') && Trimmed(path)
    requires forall i :: 0 <= i < |history| ==> Lacks(history[i].date, ',') && Lacks(history[i].date, '\n') && CountsPrintPlain(history[i])
    ensures Import(Export(path, history).value) == Some(ImportResult(path, history))
  {
    ExportedLines(path, history);
    ImportOfRows(path, history);
  }

  /** The non-blank lines of an export are its metadata line, header and rows. */
  lemma ExportedLines(path: string, history: seq<DayRecord>)
    requires history != []
    requires Lacks(path, '\n') && Trimmed(path)
    requires forall i :: 0 <= i < |history| ==> Lacks(history[i].date, '\n')
    ensures NonBlank(SplitLines(Export(path, history).value)) == [MetaPrefix + path, Header] + Rows(history)
  {
    var parts := [MetaPrefix + path, Header] + Rows(history);
    ExportShape(path, history);
    ExportLinesClean(path, history);
    LinesOfJoin(parts);
    NonBlankOfClean(parts);
  }

  /** A metadata line, a header and rows import as the path and the records of the rows. */
  lemma ImportOfRows(path: string, history: seq<DayRecord>)
    requires history != [] && Trimmed(path)
    requires forall i :: 0 <= i < |history| ==> Lacks(history[i].date, ',') && CountsPrintPlain(history[i])
    ensures ImportLines([MetaPrefix + path, Header] + Rows(history)) == Some(ImportResult(path, history))
  {
    ImportReadsMetaPath(path, history);
    ImportReadsRows(path, history);
  }

  /** The source path comes back from the metadata line. */
  lemma ImportReadsMetaPath(path: string, history: seq<DayRecord>)
    requires history != [] && Trimmed(path)
    ensures var r := ImportLines([MetaPrefix + path, Header] + Rows(history));
      r.Some? && r.value.sourcePath == path
  {
    var parts := [MetaPrefix + path, Header] + Rows(history);
    SourcePathOfMeta(path);
    assert |parts| == |history| + 2;
    assert parts[0] == MetaPrefix + path;
  }

  /** The entries come back from the rows. */
  lemma ImportReadsRows(path: string, history: seq<DayRecord>)
    requires history != []
    requires forall i :: 0 <= i < |history| ==> Lacks(history[i].date, ',') && CountsPrintPlain(history[i])
    ensures var r := ImportLines([MetaPrefix + path, Header] + Rows(history));
      r.Some? && r.value.entries == history
  {
    var parts := [MetaPrefix + path, Header] + Rows(history);
    assert |parts| == |history| + 2;
    var entries := ImportLines(parts).value.entries;
    forall i | 0 <= i < |history|
      ensures entries[i] == history[i]
    {
      assert parts[i + 2] == FormatRow(history[i]);
      ParseFormatRow(history[i]);
    }
  }

  /** The metadata line holds no newline and does not end with whitespace. */
  lemma MetaLine(path: string)
    requires Lacks(path, '\n') && Trimmed(path)
    ensures CleanLine(MetaPrefix + path)
  {
    var meta := MetaPrefix + path;
    forall k | 0 <= k < |meta|
      ensures meta[k] != '\n'
    {
      if k >= |MetaPrefix| {
        assert meta[k] == path[k - |MetaPrefix|];
      }
    }
    if path == [] {
      assert meta == MetaPrefix;
    } else {
      assert meta[|meta| - 1] == path[|path| - 1];
    }
  }
}

=== FILE: js_string.dfy ===
/**
 * The ECMAScript string built-ins the CSV code relies on, on strings of code
 * points: `split` on one character, `join`, `trim`, the decimal form of an
 * integer Number, and `parseInt` with no radix followed by `|| 0`.
 */
module JsString {
  import opened JsText

  /** `c` does not occur in `s`. */
  predicate Lacks(s: string, c: char) {
    forall k :: 0 <= k < |s| ==> s[k] != c
  }

  /** `s.split(sep)` for a one-character separator: always at least one piece. */
  function Split(s: string, sep: char): (pieces: seq<string>)
    ensures |pieces| >= 1
    ensures forall i :: 0 <= i < |pieces| ==> Lacks(pieces[i], sep)
    decreases |s|
  {
    if s == [] then [""]
    else
      var rest := Split(s[1..], sep);
      if s[0] == sep then [""] + rest
      else [[s[0]] + rest[0]] + rest[1..]
  }

  /** `parts.join(sep)`. */
  function Join(parts: seq<string>, sep: char): (r: string)
    ensures parts == [] ==> r == ""
    ensures parts != [] ==> |parts[0]| <= |r| && r[..|parts[0]|] == parts[0]
    ensures |parts| >= 2 ==> |parts[0]| < |r| && r[|parts[0]|] == sep
  {
    if parts == [] then ""
    else if |parts| == 1 then parts[0]
    else parts[0] + [sep] + Join(parts[1..], sep)
  }

  /** A string without the separator is one piece. */
  lemma {:induction false} SplitLacking(s: string, sep: char)
    requires Lacks(s, sep)
    ensures Split(s, sep) == [s]
    decreases |s|
  {
    if s != [] {
      SplitLacking(s[1..], sep);
      assert [s[0]] + s[1..] == s;
    }
  }

  /** Splitting at one separator splits the two sides independently. */
  lemma {:induction false} SplitAtSeparator(a: string, sep: char, b: string)
    ensures Split(a + [sep] + b, sep) == Split(a, sep) + Split(b, sep)
    decreases |a|
  {
    var s := a + [sep] + b;
    if a == [] {
      assert s == [sep] + b && s[1..] == b;
    } else {
      assert s[0] == a[0] && s[1..] == a[1..] + [sep] + b;
      SplitAtSeparator(a[1..], sep, b);
    }
  }

  /** A separator-free piece in front comes out as the first piece. */
  lemma SplitAfterPiece(x: string, sep: char, y: string)
    requires Lacks(x, sep)
    ensures Split(x + [sep] + y, sep) == [x] + Split(y, sep)
  {
    SplitAtSeparator(x, sep, y);
    SplitLacking(x, sep);
  }

  /** `split` undoes `join` when no part holds the separator. */
  lemma {:induction false} SplitJoin(parts: seq<string>, sep: char)
    requires parts != []
    requires forall i :: 0 <= i < |parts| ==> Lacks(parts[i], sep)
    ensures Split(Join(parts, sep), sep) == parts
    decreases |parts|
  {
    if |parts| == 1 {
      SplitLacking(parts[0], sep);
    } else {
      SplitAtSeparator(parts[0], sep, Join(parts[1..], sep));
      SplitLacking(parts[0], sep);
      SplitJoin(parts[1..], sep);
      assert [parts[0]] + parts[1..] == parts;
    }
  }

  /** Joining a part in front of a non-empty list puts one separator between them. */
  lemma JoinCons(x: string, rest: seq<string>, sep: char)
    requires rest != []
    ensures Join([x] + rest, sep) == x + [sep] + Join(rest, sep)
  {
    assert ([x] + rest)[0] == x && ([x] + rest)[1..] == rest;
  }

  /** The result of `join` holds a character only if some part or the separator does. */
  lemma {:induction false} JoinLacks(parts: seq<string>, sep: char, c: char)
    requires c != sep
    requires forall i :: 0 <= i < |parts| ==> Lacks(parts[i], c)
    ensures Lacks(Join(parts, sep), c)
    decreases |parts|
  {
    if |parts| > 1 {
      JoinLacks(parts[1..], sep, c);
    }
  }

  /** `s` with its leading `\s` code points removed. */
  function TrimStart(s: string): (r: string)
    ensures |r| <= |s| && r == s[|s| - |r|..]
    ensures r == [] || !IsRegexSpace(r[0] as int)
    ensures forall k :: 0 <= k < |s| - |r| ==> IsRegexSpace(s[k] as int)
  {
    if s != [] && IsRegexSpace(s[0] as int) then TrimStart(s[1..]) else s
  }

  /** `s` with its trailing `\s` code points removed. */
  function TrimEnd(s: string): (r: string)
    ensures |r| <= |s| && r == s[..|r|]
    ensures r == [] || !IsRegexSpace(r[|r| - 1] as int)
    ensures forall k :: |r| <= k < |s| ==> IsRegexSpace(s[k] as int)
  {
    if s != [] && IsRegexSpace(s[|s| - 1] as int) then TrimEnd(s[..|s| - 1]) else s
  }

  /** `s.trim()`: both ends, with the WhiteSpace and LineTerminator code points of `\s`. */
  function Trim(s: string): (r: string)
    ensures |r| <= |s| && Trimmed(r)
  {
    TrimEnd(TrimStart(s))
  }

  /** `trim` leaves nothing exactly when the whole string is whitespace. */
  lemma TrimEmptyIffBlank(s: string)
    ensures Trim(s) == [] <==> forall k :: 0 <= k < |s| ==> IsRegexSpace(s[k] as int)
  {
    var t := TrimStart(s);
    if t != [] {
      assert s[|s| - |t|] == t[0];
    }
  }

  /** Neither end of `s` is whitespace. */
  predicate Trimmed(s: string) {
    s == [] || (!IsRegexSpace(s[0] as int) && !IsRegexSpace(s[|s| - 1] as int))
  }

  /** `trim` keeps a string without surrounding whitespace, and only such a string. */
  lemma TrimIdentity(s: string)
    ensures Trim(s) == s <==> Trimmed(s)
  {
    if Trimmed(s) && s != [] {
      assert TrimStart(s) == s;
    }
  }

  /** A string with a non-whitespace code point is not blank after `trim`. */
  lemma NotBlank(s: string, k: nat)
    requires k < |s| && !IsRegexSpace(s[k] as int)
    ensures Trim(s) != ""
  {
    var t := TrimStart(s);
    assert |s| - |t| <= k;
    assert t[k - (|s| - |t|)] == s[k];
  }

  predicate IsDecimalDigit(c: char) { '0' <= c <= '9' }

  /** A digit of `radix` 10 or 16 (either letter case). */
  predicate IsDigitIn(c: char, radix: nat) {
    IsDecimalDigit(c) || (radix == 16 && ('a' <= c <= 'f' || 'A' <= c <= 'F'))
  }

  function DigitValue(c: char): nat {
    if IsDecimalDigit(c) then c as int - '0' as int
    else if 'a' <= c <= 'f' then c as int - 'a' as int + 10
    else if 'A' <= c <= 'F' then c as int - 'A' as int + 10
    else 0
  }

  /** The length of the longest prefix of `radix` digits. */
  function DigitPrefixLength(s: string, radix: nat): (n: nat)
    ensures n <= |s|
    ensures forall k :: 0 <= k < n ==> IsDigitIn(s[k], radix)
    ensures n < |s| ==> !IsDigitIn(s[n], radix)
  {
    if s == [] || !IsDigitIn(s[0], radix) then 0 else 1 + DigitPrefixLength(s[1..], radix)
  }

  /** The value of a digit string in `radix`, most significant digit first. */
  function DigitsValue(s: string, radix: nat): nat {
    if s == [] then 0 else DigitsValue(s[..|s| - 1], radix) * radix + DigitValue(s[|s| - 1])
  }

  /**
   * `parseInt(s) || 0`: leading whitespace skipped, an optional sign, a `0x` or
   * `0X` prefix selecting radix 16, then the longest digit prefix. No digit at
   * all is NaN and a zero is `±0`; `|| 0` turns both into 0, which is also the
   * value of an empty digit prefix here.
   */
  function ParseIntOrZero(s: string): (r: int)
    ensures r != 0 ==> exists k :: 0 <= k < |s| && IsDecimalDigit(s[k])
  {
    var t := TrimStart(s);
    var r := ParseSigned(t);
    assert r != 0 ==> exists k :: 0 <= k < |t| && IsDecimalDigit(t[k]);
    assert forall k :: 0 <= k < |t| ==> t[k] == s[|s| - |t| + k];
    r
  }

  /** A leading `-` negates, a leading `+` is dropped. */
  function ParseSigned(t: string): (r: int)
    ensures r != 0 ==> (t != [] && IsDecimalDigit(t[0])) || (|t| >= 2 && IsDecimalDigit(t[1]))
  {
    if t != [] && t[0] == '-' then -(ParseMagnitude(t[1..]) as int)
    else if t != [] && t[0] == '+' then ParseMagnitude(t[1..])
    else ParseMagnitude(t)
  }

  /** The value of the leading digits, in radix 16 after a `0x`/`0X` prefix and 10 otherwise. */
  function ParseMagnitude(u: string): (m: nat)
    ensures m != 0 ==> u != [] && IsDecimalDigit(u[0])
  {
    if |u| >= 2 && u[0] == '0' && (u[1] == 'x' || u[1] == 'X') then LeadingValue(u[2..], 16)
    else LeadingValue(u, 10)
  }

  /** The value of the longest digit prefix of `v`, 0 when there is none. */
  function LeadingValue(v: string, radix: nat): nat {
    DigitsValue(v[..DigitPrefixLength(v, radix)], radix)
  }

  function DigitChar(d: nat): (c: char)
    requires d < 10
    ensures IsDecimalDigit(c) && DigitValue(c) == d
  {
    ('0' as int + d) as char
  }

  /** The decimal digits of `n`, most significant first, with no leading zero. */
  function NatToString(n: nat): (s: string)
    ensures |s| >= 1
    ensures forall k :: 0 <= k < |s| ==> IsDecimalDigit(s[k])
    ensures |s| >= 2 ==> s[0] != '0'
  {
    if n < 10 then [DigitChar(n)] else NatToString(n / 10) + [DigitChar(n % 10)]
  }

  /**
   * `${n}` for an integer Number below 10^21 in magnitude: plain decimal
   * digits. JavaScript writes larger magnitudes in exponent form, which this
   * function does not model (see `PrintsPlain`).
   */
  function IntToString(n: int): (s: string)
    ensures |s| >= 1 && (IsDecimalDigit(s[0]) || s[0] == '-') && IsDecimalDigit(s[|s| - 1])
    ensures forall k :: 0 <= k < |s| ==> s[k] != ',' && s[k] != '\n' && s[k] != '\r'
  {
    if n < 0 then "-" + NatToString(-n) else NatToString(n)
  }

  lemma {:induction false} DigitsValueOfNatToString(n: nat)
    ensures DigitsValue(NatToString(n), 10) == n
    decreases n
  {
    var s := NatToString(n);
    if n >= 10 {
      DigitsValueOfNatToString(n / 10);
      assert s[..|s| - 1] == NatToString(n / 10);
    }
  }

  /** Number-to-string conversion writes `n` as plain digits only while `|n| < 10^21`. */
  predicate PrintsPlain(n: int) {
    -1_000_000_000_000_000_000_000 < n < 1_000_000_000_000_000_000_000
  }

  /** `parseInt` reads back the decimal form of every integer that prints in plain digits. */
  lemma ParseIntOfIntToString(n: int)
    requires PrintsPlain(n)
    ensures ParseIntOrZero(IntToString(n)) == n
  {
    var digits := if n < 0 then NatToString(-n) else NatToString(n);
    var sign := if n < 0 then "-" else "";
    assert IntToString(n) == sign + digits;
    ParseIntOfSigned(sign, digits);
    assert digits + [] == digits;
    ParseMagnitudeDecimal(digits, digits, []);
    DigitsValueOfNatToString(if n < 0 then -n else n);
  }

  /** Leading whitespace does not change what `parseInt` reads. */
  lemma {:induction false} ParseIntSkipsSpace(ws: string, s: string)
    requires forall k :: 0 <= k < |ws| ==> IsRegexSpace(ws[k] as int)
    ensures ParseIntOrZero(ws + s) == ParseIntOrZero(s)
  {
    TrimStartSkipsSpace(ws, s);
  }

  lemma {:induction false} TrimStartSkipsSpace(ws: string, s: string)
    requires forall k :: 0 <= k < |ws| ==> IsRegexSpace(ws[k] as int)
    ensures TrimStart(ws + s) == TrimStart(s)
  {
    if ws != [] {
      assert (ws + s)[0] == ws[0] && (ws + s)[1..] == ws[1..] + s;
      TrimStartSkipsSpace(ws[1..], s);
    } else {
      assert ws + s == s;
    }
  }

  /**
   * `parseInt` reads an optionally signed run of decimal digits and ignores
   * whatever follows it (unless the run is a lone `0` followed by `x`, a hex prefix).
   */
  lemma ParseIntDecimalPrefix(sign: string, digits: string, rest: string)
    requires sign == "" || sign == "-" || sign == "+"
    requires digits != [] && forall k :: 0 <= k < |digits| ==> IsDecimalDigit(digits[k])
    requires rest == [] || !IsDecimalDigit(rest[0])
    requires !(|digits| == 1 && digits[0] == '0' && rest != [] && (rest[0] == 'x' || rest[0] == 'X'))
    ensures ParseIntOrZero(sign + (digits + rest)) == (if sign == "-" then -(DigitsValue(digits, 10) as int) else DigitsValue(digits, 10))
  {
    var u := digits + rest;
    NoHexPrefix(digits, rest);
    ParseIntOfSigned(sign, u);
    ParseMagnitudeDecimal(u, digits, rest);
  }

  /** Decimal digits other than a lone `0` before `x`/`X` do not start a hex prefix. */
  lemma NoHexPrefix(digits: string, rest: string)
    requires digits != [] && forall k :: 0 <= k < |digits| ==> IsDecimalDigit(digits[k])
    requires !(|digits| == 1 && digits[0] == '0' && rest != [] && (rest[0] == 'x' || rest[0] == 'X'))
    ensures var u := digits + rest;
      u != [] && IsDecimalDigit(u[0]) && !(|u| >= 2 && u[0] == '0' && (u[1] == 'x' || u[1] == 'X'))
  {
    var u := digits + rest;
    assert u[0] == digits[0];
    if |digits| >= 2 {
      assert u[1] == digits[1];
    } else if |u| >= 2 {
      assert u[1] == rest[0];
    }
  }

  /** A hex prefix followed by `v` reads the leading hexadecimal value of `v`. */
  lemma ParseIntOfHex(x: char, v: string)
    requires x == 'x' || x == 'X'
    ensures ParseIntOrZero("0" + [x] + v) == LeadingValue(v, 16)
  {
    var s := "0" + [x] + v;
    assert s[0] == '0' && s[1] == x && s[2..] == v;
    TrimStartOfNonSpace(s);
  }

  /** The leading value of `digits + rest` is the value of `digits`. */
  lemma LeadingValueOf(digits: string, rest: string, radix: nat)
    requires forall k :: 0 <= k < |digits| ==> IsDigitIn(digits[k], radix)
    requires rest == [] || !IsDigitIn(rest[0], radix)
    ensures LeadingValue(digits + rest, radix) == DigitsValue(digits, radix)
  {
    DigitPrefixOf(digits, rest, radix);
    assert (digits + rest)[..|digits|] == digits;
  }

  /** A sign in front of a string that starts with a digit only sets the sign of the magnitude. */
  lemma ParseIntOfSigned(sign: string, u: string)
    requires sign == "" || sign == "-" || sign == "+"
    requires u != [] && IsDecimalDigit(u[0])
    ensures ParseIntOrZero(sign + u) == (if sign == "-" then -(ParseMagnitude(u) as int) else ParseMagnitude(u))
  {
    var s := sign + u;
    if sign == "" {
      assert s == u;
    } else {
      assert s[0] == sign[0] && s[1..] == u;
    }
    TrimStartOfNonSpace(s);
  }

  /** A `0x` or `0X` prefix makes `parseInt` read hexadecimal digits. */
  lemma ParseIntHexPrefix(x: char, digits: string, rest: string)
    requires x == 'x' || x == 'X'
    requires forall k :: 0 <= k < |digits| ==> IsDigitIn(digits[k], 16)
    requires rest == [] || !IsDigitIn(rest[0], 16)
    ensures ParseIntOrZero("0" + [x] + digits + rest) == DigitsValue(digits, 16)
  {
    HexRegroup(x, digits, rest);
    ParseIntOfHex(x, digits + rest);
    LeadingValueOf(digits, rest, 16);
  }

  lemma HexRegroup(x: char, digits: string, rest: string)
    ensures "0" + [x] + digits + rest == "0" + [x] + (digits + rest)
  {
  }

  /** A string that starts with no sign, digit or whitespace reads as NaN, hence 0. */
  lemma ParseIntNoDigits(s: string)
    requires s == [] || (!IsRegexSpace(s[0] as int) && !IsDecimalDigit(s[0]) && s[0] != '-' && s[0] != '+')
    ensures ParseIntOrZero(s) == 0
  {
    if s == [] {
      ParseIntEmpty();
    } else {
      ParseIntNoDigitsNonEmpty(s);
    }
  }

  lemma ParseIntEmpty()
    ensures ParseIntOrZero([]) == 0
  {
  }

  lemma ParseIntNoDigitsNonEmpty(s: string)
    requires s != [] && !IsRegexSpace(s[0] as int) && !IsDecimalDigit(s[0]) && s[0] != '-' && s[0] != '+'
    ensures ParseIntOrZero(s) == 0
  {
    TrimStartOfNonSpace(s);
    ParseSignedNoDigit(s);
  }

  /** `trimStart` keeps a string that starts with a non-space. */
  lemma TrimStartOfNonSpace(s: string)
    requires s != [] && !IsRegexSpace(s[0] as int)
    ensures TrimStart(s) == s
  {
  }

  /** With neither sign nor digit in front, `parseInt` finds no number. */
  lemma ParseSignedNoDigit(s: string)
    requires s != [] && !IsDecimalDigit(s[0]) && s[0] != '-' && s[0] != '+'
    ensures ParseSigned(s) == 0
  {
  }

  /** Without a hex prefix, the magnitude is the leading decimal value. */
  lemma ParseMagnitudeDecimal(u: string, digits: string, rest: string)
    requires u == digits + rest
    requires forall k :: 0 <= k < |digits| ==> IsDecimalDigit(digits[k])
    requires rest == [] || !IsDecimalDigit(rest[0])
    requires !(|u| >= 2 && u[0] == '0' && (u[1] == 'x' || u[1] == 'X'))
    ensures ParseMagnitude(u) == DigitsValue(digits, 10)
  {
    LeadingValueOf(digits, rest, 10);
  }

  lemma {:induction false} DigitPrefixOf(digits: string, rest: string, radix: nat)
    requires forall k :: 0 <= k < |digits| ==> IsDigitIn(digits[k], radix)
    requires rest == [] || !IsDigitIn(rest[0], radix)
    ensures DigitPrefixLength(digits + rest, radix) == |digits|
  {
    if digits == [] {
      assert digits + rest == rest;
    } else {
      assert (digits + rest)[1..] == digits[1..] + rest;
      DigitPrefixOf(digits[1..], rest, radix);
    }
  }
}

=== FILE: js_text.dfy ===
/**
 * The parts of ECMAScript string semantics that the extension relies on.
 *
 * Text is a Dafny `string`, a sequence of Unicode scalar values. Where the
 * extension indexes a string (`s[i]`, `s.length`, `s.slice`) it works on
 * UTF-16 code units; `Utf16` gives that view of a string.
 */
module JsText {

  /** One UTF-16 code unit, the element type of an ECMAScript string. */
  newtype Unit = x: int | 0 <= x < 0x1_0000

  /**
   * The regular-expression class `\s`: the WhiteSpace and LineTerminator
   * code points of ECMAScript (TAB, VT, FF, SP, NBSP, ZWNBSP, every
   * space separator of category Zs, LF, CR, LS and PS).
   * This is also the set that `String.prototype.trim` and `parseInt` strip.
   */
  predicate IsRegexSpace(c: int) {
    c == 0x09 || c == 0x0A || c == 0x0B || c == 0x0C || c == 0x0D
    || c == 0x20 || c == 0xA0 || c == 0x1680
    || (0x2000 <= c <= 0x200A)
    || c == 0x2028 || c == 0x2029 || c == 0x202F || c == 0x205F
    || c == 0x3000 || c == 0xFEFF
  }

  /** The class `[\s\t\n\r]` used by the grapheme counters of the older providers. */
  predicate IsSpaceTabNlCr(c: int) {
    IsRegexSpace(c) || c == 0x09 || c == 0x0A || c == 0x0D
  }

  /** The class `[\s\t\n\r　]` used by `CharacterCounter.count`. */
  predicate IsSpaceOrIdeographicSpace(c: int) {
    IsRegexSpace(c) || c == 0x09 || c == 0x0A || c == 0x0D || c == 0x3000
  }

  /** The three whitespace classes written in the sources denote the same set. */
  lemma WhitespaceClassesAgree(c: int)
    ensures IsSpaceTabNlCr(c) == IsRegexSpace(c)
    ensures IsSpaceOrIdeographicSpace(c) == IsRegexSpace(c)
  {
  }

  /** Every whitespace code point lies in the Basic Multilingual Plane below the surrogates. */
  lemma RegexSpaceIsBmp(c: int)
    requires IsRegexSpace(c)
    ensures 0 <= c < 0xD800 || 0xE000 <= c < 0x1_0000
  {
  }

  predicate IsHighSurrogate(u: int) { 0xD800 <= u <= 0xDBFF }

  predicate IsLowSurrogate(u: int) { 0xDC00 <= u <= 0xDFFF }

  /** The UTF-16 encoding of one scalar value: one unit, or a surrogate pair. */
  function Utf16Of(c: char): (r: seq<Unit>)
    ensures 1 <= |r| <= 2
    ensures |r| == 1 <==> c as int < 0x1_0000
    ensures |r| == 1 ==> r[0] as int == c as int && !IsHighSurrogate(r[0] as int) && !IsLowSurrogate(r[0] as int)
    ensures |r| == 2 ==> IsHighSurrogate(r[0] as int) && IsLowSurrogate(r[1] as int)
                         && PairValue(r[0] as int, r[1] as int) == c as int
  {
    var v := c as int;
    if v < 0x1_0000 then [v as Unit]
    else
      var w := v - 0x1_0000;
      [(0xD800 + w / 0x400) as Unit, (0xDC00 + w % 0x400) as Unit]
  }

  /** The code point a high/low surrogate pair stands for. */
  function PairValue(hi: int, lo: int): int {
    0x1_0000 + (hi - 0xD800) * 0x400 + (lo - 0xDC00)
  }

  /** The ECMAScript string of a text: its UTF-16 code units. */
  function Utf16(s: string): (r: seq<Unit>)
    ensures |s| <= |r| <= 2 * |s|
  {
    if s == [] then [] else Utf16Of(s[0]) + Utf16(s[1..])
  }

  /** `Utf16` distributes over concatenation. */
  lemma {:induction false} Utf16Append(a: string, b: string)
    ensures Utf16(a + b) == Utf16(a) + Utf16(b)
  {
    if a == [] {
      assert a + b == b;
    } else {
      assert (a + b)[0] == a[0];
      assert (a + b)[1..] == a[1..] + b;
      Utf16Append(a[1..], b);
    }
  }
}

=== FILE: overwrite_ledger.dfy ===
/**
 * The history ledger of src/WebViewProvider.ts: per file, per day, one record
 * `{date, addedCount, removedCount, charCount}`, with `countChars` (code points)
 * as the unit. Activation refreshes today's `charCount`; a settled edit
 * REPLACES today's added/removed by the difference to the stored `charCount`.
 */
module OverwriteLedger {
  import opened Wrappers
  import opened Days
  import CodePointCounter

  /** Today's record of a history, when there is one. */
  function TodayIndex(history: seq<DayRecord>, today: string): Option<nat> {
    FindDate(history, DayDate, today)
  }

  /** One file's history after `updateActiveFileStats` with today's count. */
  function ActivateDay(history: seq<DayRecord>, today: string, count: nat): (r: seq<DayRecord>)
    ensures UniqueDates(history, DayDate) ==> UniqueDates(r, DayDate)
    ensures CountsNonNegative(history) ==> CountsNonNegative(r)
    ensures |history| <= |r| <= |history| + 1
    ensures forall j :: 0 <= j < |history| && history[j].date != today ==> r[j] == history[j]
    ensures TodayIndex(history, today).None? ==>
      r == history + [DayRecord(today, 0, 0, count)] && TodayIndex(r, today) == Some(|history|)
    ensures TodayIndex(history, today).Some? ==>
      var i := TodayIndex(history, today).value;
      |r| == |history| && TodayIndex(r, today) == Some(i)
      && r[i].charCount == count
      && r[i].addedCount == history[i].addedCount && r[i].removedCount == history[i].removedCount
  {
    match TodayIndex(history, today)
    case None =>
      var rec := DayRecord(today, 0, 0, count);
      FindAfterAppend(history, DayDate, rec);
      AppendKeepsUnique(history, DayDate, rec);
      CountsAfterAppend(history, rec);
      history + [rec]
    case Some(i) =>
      var rec := history[i].(charCount := count);
      FindAfterReplace(history, DayDate, i, rec);
      ReplaceKeepsUnique(history, DayDate, i, rec);
      CountsAfterReplace(history, i, rec);
      history[i := rec]
  }

  /**
   * Today's existing record after `updateTodayStats`: added and removed are
   * replaced by the positive and negative parts of the change in count.
   */
  function Settle(rec: DayRecord, count: nat): (s: DayRecord)
    ensures s.date == rec.date && s.charCount == count
    ensures s.addedCount - s.removedCount == count - rec.charCount
    ensures s.addedCount >= 0 && s.removedCount >= 0
    ensures s.addedCount == 0 || s.removedCount == 0
  {
    var prev := rec.charCount;
    rec.(addedCount := if count > prev then count - prev else 0,
         removedCount := if count < prev then prev - count else 0,
         charCount := count)
  }

  /** One file's history after `updateTodayStats` with today's count. */
  function SettleDay(history: seq<DayRecord>, today: string, count: nat): (r: seq<DayRecord>)
    ensures UniqueDates(history, DayDate) ==> UniqueDates(r, DayDate)
    ensures CountsNonNegative(history) ==> CountsNonNegative(r)
    ensures |history| <= |r| <= |history| + 1
    ensures forall j :: 0 <= j < |history| && history[j].date != today ==> r[j] == history[j]
    ensures TodayIndex(history, today).None? ==>
      r == history + [DayRecord(today, count, 0, count)] && TodayIndex(r, today) == Some(|history|)
    ensures TodayIndex(history, today).Some? ==>
      var i := TodayIndex(history, today).value;
      |r| == |history| && TodayIndex(r, today) == Some(i) && r[i] == Settle(history[i], count)
  {
    match TodayIndex(history, today)
    case None =>
      var rec := DayRecord(today, count, 0, count);
      FindAfterAppend(history, DayDate, rec);
      AppendKeepsUnique(history, DayDate, rec);
      CountsAfterAppend(history, rec);
      history + [rec]
    case Some(i) =>
      var rec := Settle(history[i], count);
      FindAfterReplace(history, DayDate, i, rec);
      ReplaceKeepsUnique(history, DayDate, i, rec);
      CountsAfterReplace(history, i, rec);
      history[i := rec]
  }

  /**
   * Activating twice on one day is the same as activating once with the later
   * count: no second record, and added/removed untouched.
   */
  lemma ActivateTwice(history: seq<DayRecord>, today: string, first: nat, second: nat)
    ensures ActivateDay(ActivateDay(history, today, first), today, second) == ActivateDay(history, today, second)
  {
    var once := ActivateDay(history, today, first);
    match TodayIndex(history, today)
    case None =>
      assert once[|history|].(charCount := second) == DayRecord(today, 0, 0, second);
      assert once[|history| := DayRecord(today, 0, 0, second)] == history + [DayRecord(today, 0, 0, second)];
    case Some(i) =>
      assert once[i := once[i].(charCount := second)] == history[i := history[i].(charCount := second)];
  }

  /**
   * Settling twice with the same count leaves added and removed at 0: the
   * second call overwrites the first call's difference instead of keeping it.
   */
  lemma SettleTwiceForgetsDelta(history: seq<DayRecord>, today: string, count: nat)
    requires TodayIndex(history, today).Some?
    ensures var r := SettleDay(SettleDay(history, today, count), today, count);
            var i := TodayIndex(history, today).value;
            r[i].addedCount == 0 && r[i].removedCount == 0 && r[i].charCount == count
  {
  }

  /**
   * The ledger of one `WebViewProvider`: the active file and, per file path,
   * its history (`fileStats[path].history`).
   */
  class WebViewProvider {
    var activeFile: Option<string>
    var fileStats: map<string, seq<DayRecord>>

    /** At most one record per date in every history, and no negative count. */
    ghost predicate Valid()
      reads this
    {
      forall f :: f in fileStats ==> UniqueDates(fileStats[f], DayDate) && CountsNonNegative(fileStats[f])
    }

    /** `this.activeFile` is truthy: set, and not the empty string. */
    predicate HasActiveFile()
      reads this
    {
      activeFile.Some? && activeFile.value != ""
    }

    constructor ()
      ensures Valid() && activeFile == None && fileStats == map[]
    {
      activeFile := None;
      fileStats := map[];
    }

    /** `setActiveFile(filePath)`; `text` is the active editor's content, `today` the current date. */
    method SetActiveFile(filePath: string, today: string, text: string)
      requires Valid()
      modifies this
      ensures Valid() && activeFile == Some(filePath)
      ensures filePath == "" ==> fileStats == old(fileStats)
      ensures filePath != "" ==>
        fileStats == old(fileStats)[filePath := ActivateDay(HistoryOf(old(fileStats), filePath), today, CodePointCounter.CountChars(text))]
    {
      activeFile := Some(filePath);
      UpdateActiveFileStats(today, text);
    }

    /** The `onDidChangeActiveTextEditor` handler: the editor's path, if any editor is active. */
    method OnActiveEditorChanged(editorPath: Option<string>, today: string, text: string)
      requires Valid()
      modifies this
      ensures Valid() && activeFile == editorPath
      ensures !HasActiveFile() ==> fileStats == old(fileStats)
      ensures HasActiveFile() ==>
        fileStats == old(fileStats)[editorPath.value := ActivateDay(HistoryOf(old(fileStats), editorPath.value), today, CodePointCounter.CountChars(text))]
    {
      activeFile := editorPath;
      UpdateActiveFileStats(today, text);
    }

    /** `updateActiveFileStats()`. */
    method UpdateActiveFileStats(today: string, text: string)
      requires Valid()
      modifies this
      ensures Valid() && activeFile == old(activeFile)
      ensures !HasActiveFile() ==> fileStats == old(fileStats)
      ensures HasActiveFile() ==>
        fileStats == old(fileStats)[activeFile.value := ActivateDay(HistoryOf(old(fileStats), activeFile.value), today, CodePointCounter.CountChars(text))]
    {
      if !HasActiveFile() {
        return;
      }
      var file := activeFile.value;
      var charCount := CodePointCounter.CountChars(text);
      var history := if file in fileStats then fileStats[file] else [];
      ghost var expected := ActivateDay(HistoryOf(fileStats, file), today, charCount);
      var todayLog := FindDate(history, DayDate, today);
      if todayLog.None? {
        history := history + [DayRecord(today, 0, 0, charCount)];
      } else {
        var i := todayLog.value;
        history := history[i := history[i].(charCount := charCount)];
      }
      assert history == expected;
      fileStats := fileStats[file := history];
    }

    /** `updateTodayStats()`, called directly in place of the debounce timer. */
    method UpdateTodayStats(today: string, text: string)
      requires Valid()
      modifies this
      ensures Valid() && activeFile == old(activeFile)
      ensures !HasActiveFile() || activeFile.value !in old(fileStats) ==> fileStats == old(fileStats)
      ensures HasActiveFile() && activeFile.value in old(fileStats) ==>
        fileStats == old(fileStats)[activeFile.value := SettleDay(old(fileStats)[activeFile.value], today, CodePointCounter.CountChars(text))]
    {
      if !HasActiveFile() {
        return;
      }
      var file := activeFile.value;
      if file !in fileStats {
        return;
      }
      var history := fileStats[file];
      var charCount := CodePointCounter.CountChars(text);
      ghost var expected := SettleDay(history, today, charCount);
      var todayLog := FindDate(history, DayDate, today);
      if todayLog.None? {
        history := history + [DayRecord(today, charCount, 0, charCount)];
      } else {
        var i := todayLog.value;
        var prevCharCount := history[i].charCount;
        var added := if charCount > prevCharCount then charCount - prevCharCount else 0;
        var removed := if charCount < prevCharCount then prevCharCount - charCount else 0;
        history := history[i := history[i].(addedCount := added, removedCount := removed, charCount := charCount)];
      }
      assert history == expected;
      fileStats := fileStats[file := history];
    }

    /** The history `update()` displays: the active file's records, newest date first. */
    function DisplayedHistory(): (shown: seq<DayRecord>)
      reads this
      ensures !HasActiveFile() || activeFile.value !in fileStats ==> shown == []
      ensures HasActiveFile() && activeFile.value in fileStats ==>
        SortedByDateDesc(shown, DayDate) && multiset(shown) == multiset(fileStats[activeFile.value])
    {
      if !HasActiveFile() || activeFile.value !in fileStats then []
      else SortByDateDesc(fileStats[activeFile.value], DayDate)
    }
  }
}

=== FILE: positional_ledger.dfy ===
/**
 * The history ledger of unuse/WebViewProvider.ts: on every save the previous
 * and the new content are compared UTF-16 index by UTF-16 index; a differing
 * position counts as added when the new unit there is a non-whitespace unit,
 * and as removed when the old unit there is one. The counts accumulate into
 * today's record, whose `charCount` is the grapheme count of the new content.
 */
module PositionalLedger {
  import opened Wrappers
  import opened JsText
  import opened Days
  import CharacterCounter

  function Max(a: nat, b: nat): nat { if a < b then b else a }

  /** `oldChar !== newChar`, where an index past the end reads `undefined`. */
  predicate DiffersAt(prev: seq<Unit>, next: seq<Unit>, i: nat) {
    if i < |prev| && i < |next| then prev[i] != next[i] else i < |prev| || i < |next|
  }

  /** `ch && !/[\s\t\n\r]/.test(ch)` for the unit at index `i`. */
  predicate CountedAt(s: seq<Unit>, i: nat) {
    i < |s| && !IsSpaceTabNlCr(s[i] as int)
  }

  /** How many of the first `n` indices count as added. */
  function AddedBelow(prev: seq<Unit>, next: seq<Unit>, n: nat): nat {
    if n == 0 then 0
    else AddedBelow(prev, next, n - 1) + (if DiffersAt(prev, next, n - 1) && CountedAt(next, n - 1) then 1 else 0)
  }

  /** How many of the first `n` indices count as removed. */
  function RemovedBelow(prev: seq<Unit>, next: seq<Unit>, n: nat): nat {
    if n == 0 then 0
    else RemovedBelow(prev, next, n - 1) + (if DiffersAt(prev, next, n - 1) && CountedAt(prev, n - 1) then 1 else 0)
  }

  /** Added indices lie inside the new content. */
  lemma {:induction false} AddedBelowBound(prev: seq<Unit>, next: seq<Unit>, n: nat)
    ensures AddedBelow(prev, next, n) <= n
    ensures AddedBelow(prev, next, n) <= |next|
  {
    if n > 0 {
      AddedBelowBound(prev, next, n - 1);
      if n - 1 >= |next| {
        AddedBelowPastEnd(prev, next, n);
      }
    }
  }

  /** Past the end of the new content no index counts as added. */
  lemma {:induction false} AddedBelowPastEnd(prev: seq<Unit>, next: seq<Unit>, n: nat)
    requires n >= |next|
    ensures AddedBelow(prev, next, n) == AddedBelow(prev, next, |next|)
  {
    if n > |next| {
      AddedBelowPastEnd(prev, next, n - 1);
    }
  }

  /** Past the end of the old content no index counts as removed. */
  lemma {:induction false} RemovedBelowPastEnd(prev: seq<Unit>, next: seq<Unit>, n: nat)
    requires n >= |prev|
    ensures RemovedBelow(prev, next, n) == RemovedBelow(prev, next, |prev|)
  {
    if n > |prev| {
      RemovedBelowPastEnd(prev, next, n - 1);
    }
  }

  /** Removed indices lie inside the old content. */
  lemma {:induction false} RemovedBelowBound(prev: seq<Unit>, next: seq<Unit>, n: nat)
    ensures RemovedBelow(prev, next, n) <= n
    ensures RemovedBelow(prev, next, n) <= |prev|
  {
    if n > 0 {
      RemovedBelowBound(prev, next, n - 1);
      if n - 1 >= |prev| {
        RemovedBelowPastEnd(prev, next, n);
      }
    }
  }

  /** Identical contents differ nowhere. */
  lemma {:induction false} SameContentNoDiff(s: seq<Unit>, n: nat)
    ensures AddedBelow(s, s, n) == 0 && RemovedBelow(s, s, n) == 0
  {
    if n > 0 {
      SameContentNoDiff(s, n - 1);
    }
  }

  /**
   * The loop of `handleEdit` over `i < Math.max(prev.length, newContent.length)`,
   * on the code units of both strings.
   */
  method PositionalDiff(prev: seq<Unit>, next: seq<Unit>) returns (added: nat, removed: nat)
    ensures added == AddedBelow(prev, next, Max(|prev|, |next|))
    ensures removed == RemovedBelow(prev, next, Max(|prev|, |next|))
    ensures added <= |next| && removed <= |prev|
    ensures prev == next ==> added == 0 && removed == 0
  {
    added, removed := 0, 0;
    var maxLen := Max(|prev|, |next|);
    var i := 0;
    while i < maxLen
      invariant 0 <= i <= maxLen
      invariant added == AddedBelow(prev, next, i)
      invariant removed == RemovedBelow(prev, next, i)
    {
      var differs := if i < |prev| && i < |next| then prev[i] != next[i] else true;
      if differs {
        if i < |next| && !IsSpaceTabNlCr(next[i] as int) {
          added := added + 1;
        }
        if i < |prev| && !IsSpaceTabNlCr(prev[i] as int) {
          removed := removed + 1;
        }
      }
      i := i + 1;
    }
    AddedBelowBound(prev, next, maxLen);
    RemovedBelowBound(prev, next, maxLen);
    if prev == next {
      SameContentNoDiff(prev, maxLen);
    }
  }

  /** The added count `handleEdit` computes between two contents. */
  function AddedBetween(prev: string, next: string): nat {
    AddedBelow(Utf16(prev), Utf16(next), Max(|Utf16(prev)|, |Utf16(next)|))
  }

  /** The removed count `handleEdit` computes between two contents. */
  function RemovedBetween(prev: string, next: string): nat {
    RemovedBelow(Utf16(prev), Utf16(next), Max(|Utf16(prev)|, |Utf16(next)|))
  }

  /**
   * Inserting one character at the front shifts every later unit, so the
   * positional comparison reports the whole new text as added and the whole
   * old text as removed ("ab" to "xab": 3 added, 2 removed).
   */
  lemma InsertAtFrontCountsShift()
    ensures AddedBelow([97, 98], [120, 97, 98], 3) == 3
    ensures RemovedBelow([97, 98], [120, 97, 98], 3) == 2
  {
    var prev: seq<Unit> := [97, 98];
    var next: seq<Unit> := [120, 97, 98];
    assert DiffersAt(prev, next, 0) && DiffersAt(prev, next, 1) && DiffersAt(prev, next, 2);
    assert CountedAt(next, 0) && CountedAt(next, 1) && CountedAt(next, 2);
    assert CountedAt(prev, 0) && CountedAt(prev, 1) && !CountedAt(prev, 2);
  }

  /** One file's history after `handleEdit` folds in the counts of one save. */
  function FoldEdit(history: seq<DayRecord>, date: string, added: nat, removed: nat, count: nat): (r: seq<DayRecord>)
    ensures UniqueDates(history, DayDate) ==> UniqueDates(r, DayDate)
    ensures CountsNonNegative(history) ==> CountsNonNegative(r)
    ensures |history| <= |r| <= |history| + 1
    ensures forall j :: 0 <= j < |history| && history[j].date != date ==> r[j] == history[j]
    ensures FindDate(history, DayDate, date).None? ==>
      r == history + [DayRecord(date, added, removed, count)] && FindDate(r, DayDate, date) == Some(|history|)
    ensures FindDate(history, DayDate, date).Some? ==>
      var i := FindDate(history, DayDate, date).value;
      |r| == |history| && FindDate(r, DayDate, date) == Some(i) && r[i].charCount == count
      && r[i].addedCount - history[i].addedCount == added
      && r[i].removedCount - history[i].removedCount == removed
  {
    match FindDate(history, DayDate, date)
    case None =>
      var rec := DayRecord(date, added, removed, count);
      FindAfterAppend(history, DayDate, rec);
      AppendKeepsUnique(history, DayDate, rec);
      CountsAfterAppend(history, rec);
      history + [rec]
    case Some(i) =>
      var rec := history[i].(addedCount := history[i].addedCount + added,
                             removedCount := history[i].removedCount + removed,
                             charCount := count);
      FindAfterReplace(history, DayDate, i, rec);
      ReplaceKeepsUnique(history, DayDate, i, rec);
      CountsAfterReplace(history, i, rec);
      history[i := rec]
  }

  /** The ledger half of `handleEdit`, step by step: add to today's record, or start it with the counts; `FoldEdit` is its specification. */
  method FoldIntoHistory(history: seq<DayRecord>, date: string, added: nat, removed: nat, newCount: nat)
    returns (r: seq<DayRecord>)
    ensures r == FoldEdit(history, date, added, removed, newCount)
  {
    r := history;
    var existing := FindDate(r, DayDate, date);
    if existing.Some? {
      var i := existing.value;
      r := r[i := r[i].(addedCount := r[i].addedCount + added,
                        removedCount := r[i].removedCount + removed,
                        charCount := newCount)];
    } else {
      r := r + [DayRecord(date, added, removed, newCount)];
    }
  }

  /** One `WebViewProvider` of the positional-diff variant. */
  class WebViewProvider {
    /** `new Intl.Segmenter('ja', { granularity: 'grapheme' })`. */
    const segmenter: CharacterCounter.Segmenter
    var activeFilePath: Option<string>
    var previousContent: string
    var historyMap: map<string, seq<DayRecord>>

    /** At most one record per date in every history, and no negative count. */
    ghost predicate Valid()
      reads this
    {
      forall p :: p in historyMap ==> UniqueDates(historyMap[p], DayDate) && CountsNonNegative(historyMap[p])
    }

    /** `countEffectiveChars(text)`. */
    function CountEffectiveChars(text: string): nat {
      CharacterCounter.CountEffectiveChars(segmenter, text)
    }

    /** The key `handleEdit` stores under: `this.activeFilePath || ''`. */
    function HistoryKey(): string
      reads this
    {
      activeFilePath.GetOr("")
    }

    constructor (segmenter: CharacterCounter.Segmenter)
      ensures Valid() && this.segmenter == segmenter
      ensures activeFilePath == None && previousContent == "" && historyMap == map[]
    {
      this.segmenter := segmenter;
      activeFilePath := None;
      previousContent := "";
      historyMap := map[];
    }

    /** `setActiveFile(filePath)`: only the active path and the baseline content change. */
    method SetActiveFile(filePath: string, docText: Option<string>)
      requires Valid()
      modifies this
      ensures Valid()
      ensures activeFilePath == Some(filePath) && previousContent == docText.GetOr("")
      ensures historyMap == old(historyMap)
    {
      activeFilePath := Some(filePath);
      previousContent := docText.GetOr("");
    }

    /** `handleEdit(newContent)`. */
    method HandleEdit(newContent: string, date: string)
      requires Valid()
      modifies this
      ensures Valid() && activeFilePath == old(activeFilePath)
      ensures previousContent == newContent
      ensures historyMap == old(historyMap)[HistoryKey() := FoldEdit(HistoryOf(old(historyMap), HistoryKey()), date,
        AddedBetween(old(previousContent), newContent), RemovedBetween(old(previousContent), newContent), CountEffectiveChars(newContent))]
    {
      var prev := previousContent;
      var newCount := CountEffectiveChars(newContent);
      var added, removed := PositionalDiff(Utf16(prev), Utf16(newContent));
      var key := HistoryKey();
      var history := FoldIntoHistory(HistoryOf(historyMap, key), date, added, removed, newCount);
      historyMap := historyMap[key := history];
      previousContent := newContent;
    }

    /** The `onDidSaveTextDocument` listener: only a save of the active file is folded in. */
    method OnDidSave(savedPath: string, text: string, date: string)
      requires Valid()
      modifies this
      ensures Valid() && activeFilePath == old(activeFilePath)
      ensures activeFilePath != Some(savedPath) ==> historyMap == old(historyMap) && previousContent == old(previousContent)
      ensures activeFilePath == Some(savedPath) ==>
        previousContent == text
        && historyMap == old(historyMap)[savedPath := FoldEdit(HistoryOf(old(historyMap), savedPath), date,
          AddedBetween(old(previousContent), text), RemovedBetween(old(previousContent), text), CountEffectiveChars(text))]
    {
      if activeFilePath == Some(savedPath) {
        HandleEdit(text, date);
      }
    }
  }
}

=== FILE: tree_ledger.dfy ===
/**
 * The "editedCount" ledger of src/TreeDataProvider.ts: a module-level map from
 * file path to `{charCount, history}`, shared by the tree provider and the
 * change handler of unuse/extension.ts, and the provider that activates a file
 * for today and lists its history newest first.
 */
module TreeLedger {
  import opened Wrappers
  import opened Days
  import CodePointCounter

  /** One `fileStats` entry: the count when the file was first seen, and its days. */
  datatype FileStats = FileStats(charCount: int, history: seq<EditedDay>)

  /** Neither count of the day is negative. */
  predicate NonNegativeDay(d: EditedDay) {
    d.editedCount >= 0 && d.charCount >= 0
  }

  /** Every edit total and every count of every day is non-negative. */
  predicate EditedNonNegative(history: seq<EditedDay>) {
    forall i :: 0 <= i < |history| ==> NonNegativeDay(history[i])
  }

  lemma EditedAfterAppend(history: seq<EditedDay>, x: EditedDay)
    ensures EditedNonNegative(history) && NonNegativeDay(x) ==> EditedNonNegative(history + [x])
  {
    assert forall j :: 0 <= j < |history| ==> (history + [x])[j] == history[j];
  }

  lemma EditedAfterReplace(history: seq<EditedDay>, i: nat, x: EditedDay)
    requires i < |history|
    ensures EditedNonNegative(history) && NonNegativeDay(x) ==> EditedNonNegative(history[i := x])
  {
  }

  /** At most one day record per date, none negative. */
  predicate WellFormed(entry: FileStats) {
    UniqueDates(entry.history, EditedDate) && EditedNonNegative(entry.history) && entry.charCount >= 0
  }

  /** The sum of `editedCount` over a history. */
  function TotalEdited(history: seq<EditedDay>): int {
    if history == [] then 0 else TotalEdited(history[..|history| - 1]) + history[|history| - 1].editedCount
  }

  lemma {:induction false} TotalEditedAppend(history: seq<EditedDay>, x: EditedDay)
    ensures TotalEdited(history + [x]) == TotalEdited(history) + x.editedCount
  {
    assert (history + [x])[..|history|] == history;
  }

  /** Replacing one day changes the total by the difference of the two edit counts. */
  lemma {:induction false} TotalEditedReplace(history: seq<EditedDay>, i: nat, x: EditedDay)
    requires i < |history|
    ensures TotalEdited(history[i := x]) == TotalEdited(history) - history[i].editedCount + x.editedCount
    decreases |history|
  {
    var n := |history|;
    if i == n - 1 {
      assert history[i := x][..n - 1] == history[..n - 1];
    } else {
      assert history[i := x][..n - 1] == history[..n - 1][i := x];
      TotalEditedReplace(history[..n - 1], i, x);
    }
  }

  /** Today's part of `setActiveFile`: append `{today, 0, count}` or refresh only `charCount`. */
  function ActivateToday(history: seq<EditedDay>, today: string, count: nat): (r: seq<EditedDay>)
    ensures UniqueDates(history, EditedDate) ==> UniqueDates(r, EditedDate)
    ensures EditedNonNegative(history) ==> EditedNonNegative(r)
    ensures |history| <= |r| <= |history| + 1
    ensures forall j :: 0 <= j < |history| ==>
      r[j].date == history[j].date && r[j].editedCount == history[j].editedCount
      && (history[j].date != today ==> r[j] == history[j])
    ensures FindDate(history, EditedDate, today).None? ==>
      r == history + [EditedDay(today, 0, count)] && FindDate(r, EditedDate, today) == Some(|history|)
    ensures FindDate(history, EditedDate, today).Some? ==>
      var i := FindDate(history, EditedDate, today).value;
      |r| == |history| && FindDate(r, EditedDate, today) == Some(i) && r[i].charCount == count
  {
    match FindDate(history, EditedDate, today)
    case None =>
      var rec := EditedDay(today, 0, count);
      FindAfterAppend(history, EditedDate, rec);
      AppendKeepsUnique(history, EditedDate, rec);
      EditedAfterAppend(history, rec);
      history + [rec]
    case Some(i) =>
      var rec := history[i].(charCount := count);
      FindAfterReplace(history, EditedDate, i, rec);
      ReplaceKeepsUnique(history, EditedDate, i, rec);
      EditedAfterReplace(history, i, rec);
      history[i := rec]
  }

  /**
   * `fileStats[file]` after `setActiveFile(file)`: a file not yet tracked starts
   * as `{charCount: count, history: []}`; a tracked file keeps its top-level count.
   */
  function ActivateEntry(entry: Option<FileStats>, today: string, count: nat): (r: FileStats)
    ensures r.charCount == (if entry.Some? then entry.value.charCount else count)
    ensures r.history == ActivateToday(if entry.Some? then entry.value.history else [], today, count)
    ensures entry.Some? ==> WellFormed(entry.value) ==> WellFormed(r)
    ensures entry.None? ==> WellFormed(r)
  {
    var base := if entry.Some? then entry.value else FileStats(count, []);
    base.(history := ActivateToday(base.history, today, count))
  }

  /**
   * The history a view of `fileStats` lists for the active `file`: nothing
   * without a truthy active file or its stats, else its records newest date
   * first. `getChildren` here and `update` of unuse/EditLogProvider.ts share it.
   */
  function ShownHistory(stats: map<string, FileStats>, file: Option<string>): (shown: seq<EditedDay>)
    ensures file.None? || file.value == "" || file.value !in stats ==> shown == []
    ensures file.Some? && file.value != "" && file.value in stats ==>
      SortedByDateDesc(shown, EditedDate) && multiset(shown) == multiset(stats[file.value].history)
  {
    if file.None? || file.value == "" || file.value !in stats then []
    else SortByDateDesc(stats[file.value].history, EditedDate)
  }

  /** The entry stored under `file`, if any. */
  function Lookup(stats: map<string, FileStats>, file: string): Option<FileStats> {
    if file in stats then Some(stats[file]) else None
  }

  /** Activating twice on one day is activating once with the later count. */
  lemma ActivateTodayTwice(history: seq<EditedDay>, today: string, first: nat, second: nat)
    ensures ActivateToday(ActivateToday(history, today, first), today, second) == ActivateToday(history, today, second)
  {
    var once := ActivateToday(history, today, first);
    match FindDate(history, EditedDate, today)
    case None =>
      assert once[|history| := once[|history|].(charCount := second)] == history + [EditedDay(today, 0, second)];
    case Some(i) =>
      assert once[i := once[i].(charCount := second)] == history[i := history[i].(charCount := second)];
  }

  /** Activation never changes the file's total edit count. */
  lemma ActivateKeepsTotalEdited(history: seq<EditedDay>, today: string, count: nat)
    ensures TotalEdited(ActivateToday(history, today, count)) == TotalEdited(history)
  {
    match FindDate(history, EditedDate, today)
    case None =>
      TotalEditedAppend(history, EditedDay(today, 0, count));
    case Some(i) =>
      TotalEditedReplace(history, i, history[i].(charCount := count));
  }

  /**
   * Two activations of a tracked file on the same day keep every `editedCount`
   * and leave exactly one record for that day.
   */
  lemma ActivateEntryTwice(entry: Option<FileStats>, today: string, first: nat, second: nat)
    ensures var twice := ActivateEntry(Some(ActivateEntry(entry, today, first)), today, second);
            var h := if entry.Some? then entry.value.history else [];
            twice.history == ActivateToday(h, today, second)
            && TotalEdited(twice.history) == TotalEdited(h)
            && twice.charCount == ActivateEntry(entry, today, first).charCount
  {
    var h := if entry.Some? then entry.value.history else [];
    ActivateTodayTwice(h, today, first, second);
    ActivateKeepsTotalEdited(h, today, second);
  }

  /** The module-level `fileStats` object, shared by reference. */
  class FileStatsStore {
    var stats: map<string, FileStats>

    ghost predicate Valid()
      reads this
    {
      forall f :: f in stats ==> WellFormed(stats[f])
    }

    constructor ()
      ensures Valid() && stats == map[]
    {
      stats := map[];
    }
  }

  /** The tree-view `EditLogProvider`. */
  class EditLogProvider {
    var activeFile: Option<string>
    const store: FileStatsStore

    /** `this.activeFile` is truthy: set, and not the empty string. */
    predicate HasActiveFile()
      reads this
    {
      activeFile.Some? && activeFile.value != ""
    }

    constructor (store: FileStatsStore)
      ensures this.store == store && activeFile == None
    {
      this.store := store;
      activeFile := None;
    }

    /**
     * `setActiveFile(file)`; `editorText` is the active editor's content, if an
     * editor is active, and `today` the current date.
     */
    method SetActiveFile(file: string, today: string, editorText: Option<string>)
      requires store.Valid()
      modifies this, store
      ensures store.Valid() && activeFile == Some(file)
      ensures store.stats == old(store.stats)[file :=
        ActivateEntry(Lookup(old(store.stats), file), today, CodePointCounter.CountChars(editorText.GetOr("")))]
    {
      activeFile := Some(file);
      var text := editorText.GetOr("");
      var charCount := CodePointCounter.CountChars(text);
      var entry := if file in store.stats then store.stats[file] else FileStats(charCount, []);
      ghost var expected := ActivateEntry(Lookup(store.stats, file), today, charCount);
      var todayLog := FindDate(entry.history, EditedDate, today);
      var history;
      if todayLog.None? {
        history := entry.history + [EditedDay(today, 0, charCount)];
      } else {
        var i := todayLog.value;
        history := entry.history[i := entry.history[i].(charCount := charCount)];
      }
      assert entry.(history := history) == expected;
      store.stats := store.stats[file := entry.(history := history)];
    }

    /** The records `getChildren()` lists, one item per record, newest date first. */
    function Children(): (shown: seq<EditedDay>)
      reads this, store
      ensures !HasActiveFile() || activeFile.value !in store.stats ==> shown == []
      ensures HasActiveFile() && activeFile.value in store.stats ==>
        SortedByDateDesc(shown, EditedDate) && multiset(shown) == multiset(store.stats[activeFile.value].history)
    {
      ShownHistory(store.stats, activeFile)
    }
  }
}

=== FILE: wrappers.dfy ===
/** Optional values: `undefined`/`null` results and absent map entries of the extension. */
module Wrappers {

  datatype Option<T> = None | Some(value: T) {

    /** The value, or `default` when absent (the `x || default` and `x ?? default` idiom). */
    function GetOr(default: T): T {
      if Some? then value else default
    }
  }
}
